=== FILE: README.md ===
# vtcomposite overzoom core, in Dafny

This project models the part of vtcomposite that overzooms vector-tile
features from a source tile into a deeper target tile. It covers:

- the quadtree arithmetic: whether a source tile is an ancestor of the
  target, and the target tile's displacement inside the scaled source
  (`zxy_math.hpp`), plus the tile identity tests (`zxy_extent.hpp`);
- the point-scaling functor (`zoom_coordinates.hpp`);
- the vtzero geometry handlers and the overzoomed feature builder. The
  handlers rescale and shift every vertex, and drop points outside the
  buffered box or repeated consecutive vertices. The builder clips to the
  box, groups polygon rings under their outer ring, and writes what survives
  (`feature_builder.hpp`);
- the libdeflate wrapper: gzip and zlib sniffing, size-limited gzip
  compression, and decompression into a growing buffer (`deflate.hpp`).

Modules follow the source files:

- `Numeric`: the 32-bit types, the int32 cast, powers of two, and the
  arithmetic right shift.
- `Geometry`: points, boxes, closed-box membership, de-duplication.
- `ZxyMath`, `ZxyExtent`, `ZoomCoordinates`.
- `FeatureHandlers` and `FeatureBuilder`.
- `Deflate`.

The handlers are values whose callbacks return the updated handler. Drivers
replay vtzero's decoder protocol (begin, one point callback per vertex, end)
over a source geometry given as integer points. Each handler's result is
proved equal to an independent reference definition: a filter of the
transformed points for the point handler, a per-part de-duplication for the
linestring and ring handlers.

Outside code is not modelled. Each piece becomes a parameter:

- The boost.geometry calls become fields of `FeatureBuilder.Boost`. The
  envelope test and both clipping `intersection`s are function values. The
  single property assumed of them, `ClipsInto`, is that clipping output lies
  in the box. Only the lemmas about output staying in the box need it:
  `FeatureBuilder.EncodePolygonsCovered` and `FeatureBuilder.ApplyWithinBox`.
- libdeflate's entry points become fields of `Deflate.Libdeflate`. What its
  documentation promises is the predicate `Documented`, and only the lemmas
  that need it require it.
- Committing a feature is returning `Some`. Exceptions are `Failed` outcomes
  that carry the exact message.

## Model

| member | source | states |
|---|---|---|
| Numeric.AsInt32 | src/feature_builder.hpp:39-40 | the uint32 to int32 cast yields an int32 congruent to its argument modulo 2^32, and is the identity below 2^31 |
| Numeric.ShrIsDiv | src/zxy_math.hpp:13 | `x >> n` on a signed int is floor division by 2^n, negative values included |
| ZxyMath.WithinTargetIsAncestry | src/zxy_math.hpp:9-14 | `within_target` holds exactly when the source is no deeper than the target and the target's column and row, floor-divided by 2^(z - source z), are the source's |
| ZxyMath.WithinTargetIffAncestor | src/zxy_math.hpp:9-14 | for a target tile, `within_target` holds exactly when the source is the target's ancestor at the source zoom |
| ZxyMath.WithinTargetSameZoom | src/zxy_math.hpp:11-13 | at equal zoom only the target's own position passes; a source deeper than the target never does |
| ZxyMath.WithinTargetTransitive | src/zxy_math.hpp:9-14 | an ancestor of an ancestor of the target passes the test |
| ZxyMath.AncestorUnique | src/zxy_math.hpp:9-14 | a tile passes the test for its ancestor, and for no other tile at that zoom |
| ZxyMath.Displacement | src/zxy_math.hpp:16-31 | the loop's dx (dy) is the low (z - source z) bits of x (y) times the even-rounded tile size, and both are 0 when the target is not deeper |
| ZxyMath.OffsetBounds | src/zxy_math.hpp:16-31 | for an even tile size the displacement is a whole number of tiles in [0, tile size * 2^dz) |
| ZxyMath.OffsetIsOriginDifference | src/zxy_math.hpp:16-31 | when the source contains the target, the displacement is the target's pixel origin minus the source's, both at the target zoom |
| ZxyMath.QuadrantTileOffset | test/vtcomposite-points.test.js:83-99 | tile (3,1,1) lies under the z0 tile and its displacement is one 4096-pixel tile on each axis |
| ZxyExtent.SameIsEquality | src/zxy_extent.hpp:23-27 | `same` is equality of tile positions, so it is reflexive and symmetric |
| ZxyExtent.SameZxyIsSame | src/zxy_extent.hpp:29-33 | `same_zxy` against a tile's own coordinates is `same`, and holds exactly for the position made of the three numbers |
| ZxyExtent.SameZxyWithinTarget | src/zxy_extent.hpp:29-33 | a tile at the target's own position passes the ancestry test |
| ZoomCoordinates.ApplyCompose | src/zoom_coordinates.hpp:20-24 | scaling by a then by b is scaling by a * b |
| ZoomCoordinates.ApplyInjective | src/zoom_coordinates.hpp:20-24 | a non-zero factor maps distinct points to distinct points |
| Geometry.DedupNoRepeats | src/feature_builder.hpp:77-88 | de-duplication leaves no two equal consecutive vertices |
| Geometry.DedupIdempotent | src/feature_builder.hpp:77-88 | de-duplicating twice is de-duplicating once |
| Geometry.DedupLengthAboveOne | src/feature_builder.hpp:205-213 | more than one vertex survives de-duplication exactly when some vertex differs from the first |
| Geometry.DedupElements | src/feature_builder.hpp:77-88 | de-duplication only drops vertices: every surviving vertex is a source vertex |
| FeatureHandlers.PointsKeepOrder | src/feature_builder.hpp:37-46 | decoding a concatenation of points is concatenating the decodings: kept points stay in source order |
| FeatureHandlers.PointsKeptIffCovered | src/feature_builder.hpp:37-46 | every kept point lies in the closed box; every transformed point the box covers is kept; every kept point is the transform of a source point |
| FeatureHandlers.PointsEmptyIffNoneCovered | src/feature_builder.hpp:37-46 | the point handler keeps nothing exactly when no transformed point lies in the box |
| FeatureHandlers.PointsDecodeIsFilter | src/feature_builder.hpp:20-55 | the point handler, driven over a geometry, yields exactly the transformed points the closed box covers, in source order |
| FeatureHandlers.LineStringHandler.LinestringBegin | src/feature_builder.hpp:70-75 | `linestring_begin` opens exactly one empty part, leaves earlier parts alone and re-arms the first-vertex flag |
| FeatureHandlers.LineHandlerDecodes | src/feature_builder.hpp:57-99 | the linestring handler yields each source part de-duplicated and transformed, one output part per source part, the first vertex always kept |
| FeatureHandlers.DedupPartsNoRepeats | src/feature_builder.hpp:77-88 | with a non-zero zoom factor no decoded part has two equal consecutive vertices |
| FeatureHandlers.PolygonHandler.RingBegin | src/feature_builder.hpp:114-119 | `ring_begin` opens exactly one empty ring and re-arms the first-vertex flag |
| FeatureHandlers.PolygonHandler.RingEnd | src/feature_builder.hpp:134-137 | `ring_end` tags the last ring, and only it, with the reported type |
| FeatureHandlers.PolygonHandlerDecodes | src/feature_builder.hpp:101-146 | the polygon handler yields each source ring de-duplicated and transformed, with the type the decoder reported |
| FeatureBuilder.WrittenPointsIsDedup | src/feature_builder.hpp:202-213 | the linestring writer's inner loop sets exactly the de-duplicated clipped linestring |
| FeatureBuilder.EncodeLinesWellFormed | src/feature_builder.hpp:196-219 | with the corrected writer: every written linestring has its announced number of points, at least two and no zero-length segment, and lies in the box when the clipped parts do; the feature is kept exactly when some clipped part has a vertex other than its first |
| FeatureBuilder.EncodeLinesIsRef | src/feature_builder.hpp:196-219 | the corrected writer writes one linestring per clipped part that has a vertex other than its first, in order, announced with the size of its de-duplication and made of it; every other part is dropped |
| FeatureBuilder.EncodeLinesShape | src/feature_builder.hpp:196-219 | with the corrected writer: every written linestring has exactly its announced number of points, more than one, with no two equal consecutive points |
| FeatureBuilder.EncodeLinesCovered | src/feature_builder.hpp:196-219 | with the corrected writer: when every clipped part lies in the box, so does every written linestring |
| FeatureBuilder.EncodeLinesValid | src/feature_builder.hpp:196-219 | with the corrected writer: the feature is marked valid exactly when some linestring is written, and exactly when some clipped part has a vertex other than its first |
| FeatureBuilder.EncodeLinesAsWrittenAgrees | src/feature_builder.hpp:196-219 | the writer as written keeps the same features as the corrected one, and writes the same geometry whenever no clipped part repeats a vertex |
| FeatureBuilder.LineCountMismatch | src/feature_builder.hpp:199-213 | for clipped part (0,0),(0,0),(5,5) the writer announces 3 points and sets 2 |
| FeatureBuilder.GroupRings | src/feature_builder.hpp:226-243 | while a ring is being processed a polygon is open, and no grouped ring has 3 points or fewer |
| FeatureBuilder.GroupRingsKeepsKept | src/feature_builder.hpp:226-243 | the grouped rings, in order, are exactly the rings of over 3 points whose governing (last preceding) outer ring's envelope touches the box; there is one polygon per such outer ring, and polygon k holds exactly the kept rings governed by the (k+1)-th of them; processing is on exactly when the governing outer ring touches the box |
| FeatureBuilder.GroupRingsProcess | src/feature_builder.hpp:226-243 | after any prefix of rings, processing is on exactly when the last outer ring so far exists and its envelope touches the box |
| FeatureBuilder.GroupRingsFlatten | src/feature_builder.hpp:226-243 | the grouped rings, polygon after polygon, are exactly the reference's kept rings in source order |
| FeatureBuilder.GroupRingsCount | src/feature_builder.hpp:226-243 | the grouping opens one polygon per outer ring whose envelope touches the box |
| FeatureBuilder.GroupRingsPolygons | src/feature_builder.hpp:226-243 | polygon k of the grouping is exactly the kept rings, in order, that follow the (k+1)-th outer ring touching the box and precede the next one: each outer ring gets its own holes |
| FeatureBuilder.EncodePolygons | src/feature_builder.hpp:244-266 | every written ring has more than 3 points |
| FeatureBuilder.EncodePolygonsIsRef | src/feature_builder.hpp:244-266 | the writer writes every ring of every clipping result that has more than 3 points, in order, and nothing else |
| FeatureBuilder.LargeRingsMembers | src/feature_builder.hpp:253-262 | a ring of one clipped polygon is written exactly when it has more than 3 points |
| FeatureBuilder.EncodePolygonsEmptyIff | src/feature_builder.hpp:244-266 | nothing is written exactly when clipping no grouped polygon leaves a ring of over 3 points |
| FeatureBuilder.EncodePolygonsCovered | src/feature_builder.hpp:244-266 | when clipping keeps its promise, every written ring lies in the box |
| FeatureBuilder.Builder.Apply | src/feature_builder.hpp:274-292 | with the corrected linestring writer: a written feature keeps the source id and geometry kind; a feature of another type writes nothing |
| FeatureBuilder.Builder.ApplyAsWritten | src/feature_builder.hpp:274-292 | the dispatch as written, over the as-written linestring writer: a written feature keeps the source id, a linestring feature writes linestrings, another type writes nothing |
| FeatureBuilder.ApplyAsWrittenAgrees | src/feature_builder.hpp:186-292 | the builder as written commits exactly the features the corrected one does, writes the same points and polygons, and writes the same linestrings whenever no clipped part repeats a point |
| FeatureBuilder.ApplyPointWrittenIff | src/feature_builder.hpp:173-184 | a point feature is written exactly when some transformed point lies in the box, and then with exactly the surviving points |
| FeatureBuilder.ApplyLinestringWrittenIff | src/feature_builder.hpp:186-221 | with the corrected writer: a linestring feature is written exactly when some clipped part has a vertex other than its first, and every written linestring is well formed (the commit condition is the same as written, by `FeatureBuilder.ApplyAsWrittenAgrees`) |
| FeatureBuilder.ApplyPolygonWrittenIff | src/feature_builder.hpp:222-272 | no outer ring touching the box means nothing is written; a polygon feature is written exactly when clipping some grouped polygon leaves a ring of over 3 points; written rings have over 3 points |
| FeatureBuilder.ApplyWithinBox | test/vtcomposite-polygons.test.js:142-158 | when clipping keeps its promise, every vertex of every written feature lies in the buffered box |
| FeatureBuilder.OverzoomPlacesPoint | src/feature_builder.hpp:39-40 | with the displacement and zoom factor of a contained target, the transform puts a source point at its target-zoom pixel position minus the target tile's origin |
| FeatureBuilder.OverzoomTestPoints | test/vtcomposite-points.test.js:56-67 | (640,832) at z0 lands at (1280,1664) in tile (1,0,0) and at (1024,2560) in tile (3,1,1) |
| Deflate.ZlibSniffIsHeaderCheck | src/deflate.hpp:13-21 | `is_zlib` accepts exactly the RFC 1950 headers with CMF 0x78, a correct FCHECK and no preset dictionary |
| Deflate.SniffersDisjoint | src/deflate.hpp:13-31 | no input is both gzip and zlib; two bytes or fewer are never compressed; both tests read only the first two bytes |
| Deflate.Compress | src/deflate.hpp:62-89 | an input over the limit fails with the size message; within the limit it fails, with the empty-output message, exactly when libdeflate writes nothing into the bound's space, and otherwise the output is exactly the bytes libdeflate wrote |
| Deflate.CompressSucceedsWithinLimit | src/deflate.hpp:62-89 | with libdeflate as documented, compression succeeds exactly within the limit and yields a gzip stream |
| Deflate.NextSize | src/deflate.hpp:155-156 | the corrected growth step strictly grows the buffer and never past the limit |
| Deflate.GrowLoop | src/deflate.hpp:140-157 | with the corrected growth step: the loop stops on a result that is not insufficient space, at a size between the guess and the limit (at the guess when the guess suffices), or fails only when the limit-sized buffer is still too small |
| Deflate.GrowLoopStopsAtFirst | src/deflate.hpp:140-157 | with the corrected growth step: the loop stops at the first size it tries whose result is not insufficient space (every smaller size tried was too small), and reports the limit only after every size it tried, the limit included, was too small |
| Deflate.Finish | src/deflate.hpp:159-171 | the output is written exactly on success, with the bytes libdeflate produced; the limit failure, short output, bad data and any other status each fail with their own message |
| Deflate.DecompressMessagesDistinct | src/deflate.hpp:151-170 | the limit, short-output, bad-data and other-status messages are pairwise different |
| Deflate.Apply | src/deflate.hpp:131-172 | with the corrected growth step: a written output is what libdeflate produced into a buffer no larger than the limit; the limit failure means even the limit was too small |
| Deflate.Decompress | src/deflate.hpp:119-129 | with the corrected `apply`: input that is neither gzip nor zlib leaves the output as it was |
| Deflate.GzipDecompresses | src/deflate.hpp:124-125 | with the corrected growth step: a gzip stream goes to libdeflate's gzip decoder: when that decoder yields the bytes from their size on, within the limit, decompression writes them |
| Deflate.ZlibDecompresses | src/deflate.hpp:126-127 | with the corrected growth step: a zlib stream goes to libdeflate's zlib decoder, whatever the gzip decoder would make of it, and decompression writes what it yields |
| Deflate.GrowLoopReaches | src/deflate.hpp:137-157 | with the corrected growth step: for a stream that fits exactly from some size on, the loop ends with its bytes when the limit allows that size |
| Deflate.RoundTrip | src/deflate.hpp:62-172 | with the corrected growth step: decompressing what the compressor wrote gives back the input whenever it fits both limits |
| Deflate.DefaultsRoundTrip | src/deflate.hpp:50-51 | with the corrected growth step, the default compressor limit of 2000000000 bytes and the decompressor default of 2147483648 (line 109), every input up to 2000000000 bytes survives a round trip, and a larger one is refused with the size message |
| Deflate.DecompressWithinLimit | src/deflate.hpp:131-172 | with the corrected growth step: decompressed output never exceeds the decompressor's limit |
| Deflate.AsWrittenStalls | src/deflate.hpp:155-156 | a buffer whose capacity equals its size is a fixed point of the as-written growth step, so the loop never ends |
| Deflate.AsWrittenNeverEnds | src/deflate.hpp:137-157 | for an input of 8 bytes or more that inflates past 4 times its size, the as-written loop never ends with libstdc++ growth, while the corrected loop returns the inflated bytes |
| Deflate.ApplyAsWritten | src/deflate.hpp:131-172 | `apply` as written: when it ends within the fuel, a written output is what libdeflate produced in a buffer no larger than the limit, and the limit failure means the limit was too small |
| Deflate.DecompressAsWritten | src/deflate.hpp:119-129 | the dispatch over the as-written `apply`: input that is neither gzip nor zlib ends at once and leaves the output as it was |
| Deflate.ApplyAsWrittenAgrees | src/deflate.hpp:131-172 | for a stream that fits from some size on within the limit, whenever the as-written `apply` ends it ends with the corrected one's result, the inflated bytes |

## Left out

- `mercator_extent` in `zxy_extent.hpp` is left out: it is floating-point Web-Mercator arithmetic.
- vtzero's wire format is left out: command integers, zigzag coding, and ring classification by signed area. The decoder is modelled by the callbacks it makes, and the ring type it reports is part of the input.
- `finalize` is left out: property copying through `property_mapper`. Committing is returning `Some`, and `copy_id` is the copied `Option` id.
- The boost.geometry algorithms are parameters. The only property assumed is that clipping output lies in the box, and only `FeatureBuilder.EncodePolygonsCovered` and `FeatureBuilder.ApplyWithinBox` need it.
- libdeflate is a parameter, described by `Documented`. The allocation failures of the `Compressor` and `Decompressor` constructors are left out.
- `Deflate.Compress` models only the output's final contents. The pre-sizing of the output buffer to the compression bound is not modelled, and neither is what the buffer holds after an exception.
- The composite driver, Node bindings, the localize engine and the thread pool are not part of this model.
- FeatureHandlers.Overzoom.Apply: coordinates are unbounded integers. The int32 wrap-around of `pt * zoom_factor - d` is not modelled; only the uint32-to-int32 casts of dx, dy and the factor are.
- ZxyMath.Displacement: the int overflow of `half_tile <<= 1` and of `dx += half_tile` is not modelled. The loop is exact for unbounded integers.
- ZxyMath.WithinTargetIsAncestry: the undefined behaviour of shifting an int by 32 or more is not modelled. Such a shift is an exact floor division here.
- Deflate.GrowLoopAsWritten: the container's capacity policy is a parameter. The standard fixes it only as "at least the size".
- FeatureBuilder.Builder.Apply: runs the corrected linestring writer of the first finding below, so a part that repeats a point is announced with its written size; the code as written is `FeatureBuilder.Builder.ApplyAsWritten`.
- FeatureBuilder.ApplyLinestringWrittenIff: its well-formedness clause holds of the corrected writer only; as written, a part that repeats a point is announced with more points than are set.
- Deflate.Apply: runs the corrected growth step of the second finding below, so it ends where the code as written can loop forever; the code as written is `Deflate.ApplyAsWritten`, which can only be run with fuel.
- Deflate.Decompress: dispatches to the corrected `Deflate.Apply`; the dispatch as written is `Deflate.DecompressAsWritten`.

## Findings

| source | as written | input that shows it | evidently intended | confidence | as-written member | corrected member |
|---|---|---|---|---|---|---|
| src/feature_builder.hpp:199-213 | `add_linestring(l.size())` announces every clipped point, but the loop then sets only the points that differ from the previous one | clipped part (0,0),(0,0),(5,5): 3 announced, 2 set, so the LineTo count claims a vertex that is never written; a part of equal points announces 2 and sets 1 | announce the number of de-duplicated points, and skip parts with fewer than two | medium, not executed | FeatureBuilder.EncodeLinesAsWritten, FeatureBuilder.LineCountMismatch, FeatureBuilder.Builder.ApplyAsWritten | FeatureBuilder.EncodeLines, FeatureBuilder.EncodeLinesWellFormed, FeatureBuilder.Builder.Apply |
| src/deflate.hpp:155-156 | the next size is `(capacity << 1) - size`, which equals the size whenever the capacity equals the size | a gzip input of 8 or more bytes that inflates past 4 times its size, read into a fresh libstdc++ std::string below the limit: the first resize makes capacity equal to size, and the loop repeats the same call forever | double the buffer, capped at the limit | medium, not executed | Deflate.GrowLoopAsWritten, Deflate.ApplyAsWritten, Deflate.AsWrittenNeverEnds | Deflate.GrowLoop, Deflate.Apply, Deflate.RoundTrip |

=== FILE: deflate.dfy ===
/**
 The compression layer around libdeflate: sniffing gzip and zlib headers,
 gzip-compressing a buffer under a size limit, and decompressing into a
 buffer that grows until the stream fits or the limit is reached.

 libdeflate itself is not modelled: its entry points are the fields of the
 `Libdeflate` record, and `Documented` states what its documentation
 promises of them. Buffers are modelled by their contents; the buffer
 capacity that the decompression loop reads is modelled explicitly only in
 the as-written loop, where it decides whether the loop makes progress.
 */
module Deflate {
  import opened Numeric

  // ---------------------------------------------------------------- sniffing

  /** `is_zlib`: more than two bytes, CMF 0x78 and one of the four FLG bytes
      a zlib writer emits. */
  predicate IsZlib(data: seq<byte>) {
    && |data| > 2
    && data[0] == 0x78
    && (data[1] == 0x9C || data[1] == 0x01 || data[1] == 0xDA || data[1] == 0x5E)
  }

  /** `is_gzip`: more than two bytes starting with the gzip magic ID1 ID2. */
  predicate IsGzip(data: seq<byte>) {
    |data| > 2 && data[0] == 0x1F && data[1] == 0x8B
  }

  /** `is_compressed` */
  predicate IsCompressed(data: seq<byte>) {
    IsGzip(data) || IsZlib(data)
  }

  /** Section 2.2 of RFC 1950: CMF and FLG read as a big-endian 16-bit number
      are a multiple of 31 (the FCHECK bits). */
  predicate ZlibHeaderChecks(cmf: byte, flg: byte) {
    (cmf * 256 + flg) % 31 == 0
  }

  /** Section 2.2 of RFC 1950: bit 5 of FLG, FDICT, announces a preset
      dictionary. */
  predicate PresetDictionary(flg: byte) {
    (flg / 32) % 2 == 1
  }

  lemma ZlibFlagValues(flg: byte)
    ensures ZlibHeaderChecks(0x78, flg) && !PresetDictionary(flg) <==>
      flg == 0x9C || flg == 0x01 || flg == 0xDA || flg == 0x5E
  {
    assert ZlibHeaderChecks(0x78, flg) <==> flg % 31 == 1;
    if flg % 31 == 1 {
      var k := flg / 31;
      assert flg == 31 * k + 1;
      assert 0 <= k <= 8;
      if k == 0 { assert flg == 0x01; }
      else if k == 1 { assert flg == 0x20; }
      else if k == 2 { assert flg == 0x3F; }
      else if k == 3 { assert flg == 0x5E; }
      else if k == 4 { assert flg == 0x7D; }
      else if k == 5 { assert flg == 0x9C; }
      else if k == 6 { assert flg == 0xBB; }
      else if k == 7 { assert flg == 0xDA; }
      else { assert flg == 0xF9; }
    }
  }

  /** The zlib sniffer accepts exactly the RFC 1950 headers with deflate and a
      32K window (CMF 0x78), a correct check value and no preset
      dictionary. */
  lemma ZlibSniffIsHeaderCheck(data: seq<byte>)
    ensures IsZlib(data) <==>
      |data| > 2 && data[0] == 0x78 && ZlibHeaderChecks(data[0], data[1]) && !PresetDictionary(data[1])
  {
    if |data| > 2 {
      ZlibFlagValues(data[1]);
    }
  }

  /** No input is both gzip and zlib, so the order of the dispatch tests does
      not matter; both look at the first two bytes only, and input of two
      bytes or fewer is never compressed. */
  lemma SniffersDisjoint(a: seq<byte>, b: seq<byte>)
    ensures !(IsGzip(a) && IsZlib(a))
    ensures |a| <= 2 ==> !IsCompressed(a)
    ensures |a| > 2 && |b| > 2 && a[..2] == b[..2] ==>
      (IsGzip(a) <==> IsGzip(b)) && (IsZlib(a) <==> IsZlib(b))
  {
    if |a| > 2 && |b| > 2 && a[..2] == b[..2] {
      assert a[0] == a[..2][0] && a[1] == a[..2][1];
      assert b[0] == b[..2][0] && b[1] == b[..2][1];
    }
  }

  // ------------------------------------------------------------- libdeflate

  /** `libdeflate_result`: success carries the bytes written. */
  datatype DecodeResult =
    | Success(bytes: seq<byte>)
    | BadData
    | ShortOutput
    | InsufficientSpace
    | OtherResult(code: int)

  /** The libdeflate entry points used: the gzip compression bound, gzip
      compression at a level into a given space (an empty result is
      libdeflate's 0, "did not fit"), and gzip and zlib decompression of a
      stream into a given space. */
  datatype Libdeflate = Libdeflate(
    gzipCompressBound: nat -> nat,
    gzipCompress: (int, seq<byte>, nat) -> seq<byte>,
    gzipDecompress: (seq<byte>, nat) -> DecodeResult,
    zlibDecompress: (seq<byte>, nat) -> DecodeResult)

  /** What libdeflate documents: compression never writes past the given
      space and always succeeds in the bound's space; its output is a gzip
      stream (section 2.3 of RFC 1952: ID1 0x1F, ID2 0x8B, ten-byte header)
      that decompresses to the input when the space holds it and reports
      insufficient space otherwise; and decompression never reports more
      bytes than the space it was given. */
  ghost predicate Documented(lib: Libdeflate) {
    && (forall level, d, cap :: |lib.gzipCompress(level, d, cap)| <= cap)
    && (forall level, d :: |lib.gzipCompress(level, d, lib.gzipCompressBound(|d|))| > 0)
    && (forall level, d, cap :: |lib.gzipCompress(level, d, cap)| > 0 ==> IsGzip(lib.gzipCompress(level, d, cap)))
    && (forall level, d, cap: nat, space: nat :: |lib.gzipCompress(level, d, cap)| > 0 ==>
          lib.gzipDecompress(lib.gzipCompress(level, d, cap), space) ==
            if space >= |d| then Success(d) else InsufficientSpace)
    && (forall s, space :: lib.gzipDecompress(s, space).Success? ==> |lib.gzipDecompress(s, space).bytes| <= space)
    && (forall s, space :: lib.zlibDecompress(s, space).Success? ==> |lib.zlibDecompress(s, space).bytes| <= space)
  }

  // ------------------------------------------------------------ outcomes

  /** The new contents of the output buffer, or the message of the
      runtime_error thrown. */
  datatype Outcome = Written(output: seq<byte>) | Failed(message: string)

  const TooLargeMessage := "size may use more memory than intended when decompressing"
  const EmptyOutputMessage := "actual_compressed_size 0"
  const LimitMessage := "request to resize output buffer can't exceed maximum limit"
  const ShortOutputMessage := "short output: did not succeed"
  const BadDataMessage := "bad data: did not succeed"
  const FailureMessage := "did not succeed"

  function Min(a: nat, b: nat): nat {
    if a <= b then a else b
  }

  // ------------------------------------------------------------ compressor

  /** A compressor: the compression level and the largest input accepted. */
  datatype Compressor = Compressor(level: int, maxBytes: nat)

  /** The default compressor: level 6, inputs up to 2000000000 bytes. */
  const DefaultCompressor := Compressor(6, 2000000000)

  /** `Compressor::operator()`: refuse an input over the limit, gzip it into
      the bound's space, and fail if libdeflate wrote nothing. */
  function Compress(c: Compressor, lib: Libdeflate, data: seq<byte>): (r: Outcome)
    ensures |data| > c.maxBytes ==> r == Failed(TooLargeMessage)
    ensures r.Written? ==> |data| <= c.maxBytes && |r.output| > 0
    ensures r.Failed? ==> r.message == TooLargeMessage || r.message == EmptyOutputMessage
    ensures |data| <= c.maxBytes ==>
      (r.Failed? <==> |lib.gzipCompress(c.level, data, lib.gzipCompressBound(|data|))| == 0)
    ensures |data| <= c.maxBytes && r.Failed? ==> r.message == EmptyOutputMessage
    ensures r.Written? ==> r.output == lib.gzipCompress(c.level, data, lib.gzipCompressBound(|data|))
  {
    if |data| > c.maxBytes then Failed(TooLargeMessage)
    else
      var bound := lib.gzipCompressBound(|data|);
      var produced := lib.gzipCompress(c.level, data, bound);
      if |produced| == 0 then Failed(EmptyOutputMessage) else Written(produced)
  }

  /** Under libdeflate's documented behaviour, compression fails exactly for
      inputs over the limit, and otherwise produces a stream the gzip sniffer
      recognises. */
  lemma CompressSucceedsWithinLimit(c: Compressor, lib: Libdeflate, data: seq<byte>)
    requires Documented(lib)
    ensures Compress(c, lib, data).Written? <==> |data| <= c.maxBytes
    ensures Compress(c, lib, data).Written? ==> IsGzip(Compress(c, lib, data).output)
  {
    if |data| <= c.maxBytes {
      assert |lib.gzipCompress(c.level, data, lib.gzipCompressBound(|data|))| > 0;
    }
  }

  // ---------------------------------------------------------- decompressor

  /** A decompressor: the largest output buffer it will grow. */
  datatype Decompressor = Decompressor(maxBytes: nat)

  /** The default decompressor: output up to 2147483648 bytes. */
  const DefaultDecompressor := Decompressor(2147483648)

  /** How the growth loop ended: a libdeflate result other than insufficient
      space, with the buffer size it was given, or the limit reached. */
  datatype LoopExit = Stopped(size: nat, result: DecodeResult) | LimitReached | OutOfFuel

  /** The next buffer size, as evidently intended: double the buffer (from
      at least one byte), capped at the limit. */
  function NextSize(size: nat, max: nat): (n: nat)
    requires size < max
    ensures size < n <= max
  {
    Min(if size == 0 then 1 else 2 * size, max)
  }

  /** The corrected loop, started at `size`, would try buffer size `n`:
      `n` is `size` or is tried after the next step. The sizes tried grow
      strictly, so a smaller size tried comes before a larger one. */
  predicate Tried(size: nat, max: nat, n: nat)
    requires size <= max
    decreases max - size
  {
    n == size || (size < max && n > size && Tried(NextSize(size, max), max, n))
  }

  /** The growth loop with the corrected growth step: call libdeflate with the
      current size; stop on any result but insufficient space; fail when the
      buffer already has the limit's size; grow otherwise. */
  function GrowLoop(fun: (seq<byte>, nat) -> DecodeResult, data: seq<byte>, size: nat, max: nat): (r: LoopExit)
    requires size <= max
    ensures !r.OutOfFuel?
    ensures r.Stopped? ==> size <= r.size <= max && r.result == fun(data, r.size) && !r.result.InsufficientSpace?
    ensures r.LimitReached? ==> fun(data, max).InsufficientSpace?
    ensures !fun(data, size).InsufficientSpace? ==> r == Stopped(size, fun(data, size))
    decreases max - size
  {
    var result := fun(data, size);
    if !result.InsufficientSpace? then Stopped(size, result)
    else if size == max then LimitReached
    else GrowLoop(fun, data, NextSize(size, max), max)
  }

  /** The loop stops at the first size it tries whose result is not
      insufficient space, and reports the limit only after every size it
      tried, the limit included, was too small. */
  lemma {:induction false} GrowLoopStopsAtFirst(fun: (seq<byte>, nat) -> DecodeResult, data: seq<byte>, size: nat, max: nat)
    requires size <= max
    ensures GrowLoop(fun, data, size, max).Stopped? ==>
      && Tried(size, max, GrowLoop(fun, data, size, max).size)
      && forall n: nat :: Tried(size, max, n) && n < GrowLoop(fun, data, size, max).size ==> fun(data, n).InsufficientSpace?
    ensures GrowLoop(fun, data, size, max).LimitReached? ==>
      Tried(size, max, max) && forall n: nat :: Tried(size, max, n) ==> fun(data, n).InsufficientSpace?
    decreases max - size
  {
    if fun(data, size).InsufficientSpace? && size < max {
      var next := NextSize(size, max);
      GrowLoopStopsAtFirst(fun, data, next, max);
      assert GrowLoop(fun, data, size, max) == GrowLoop(fun, data, next, max);
    }
  }

  /** The error mapping after the loop. */
  function Finish(e: LoopExit): (r: Outcome)
    requires !e.OutOfFuel?
    ensures r.Written? <==> e.Stopped? && e.result.Success?
    ensures r.Written? ==> r.output == e.result.bytes
    ensures e.LimitReached? ==> r == Failed(LimitMessage)
    ensures e.Stopped? && e.result.ShortOutput? ==> r == Failed(ShortOutputMessage)
    ensures e.Stopped? && e.result.BadData? ==> r == Failed(BadDataMessage)
    ensures e.Stopped? && (e.result.InsufficientSpace? || e.result.OtherResult?) ==> r == Failed(FailureMessage)
  {
    match e
    case LimitReached => Failed(LimitMessage)
    case Stopped(_, result) =>
      match result
      case ShortOutput => Failed(ShortOutputMessage)
      case BadData => Failed(BadDataMessage)
      case Success(bytes) => Written(bytes)
      case _ => Failed(FailureMessage)
  }

  /** The four ways decompression can fail carry four different messages,
      so a caller can tell them apart. */
  lemma DecompressMessagesDistinct()
    ensures ShortOutputMessage != BadDataMessage
    ensures ShortOutputMessage != FailureMessage && BadDataMessage != FailureMessage
    ensures LimitMessage !in {ShortOutputMessage, BadDataMessage, FailureMessage}
  {
    assert |ShortOutputMessage| == 29 && |BadDataMessage| == 25;
    assert |FailureMessage| == 15 && |LimitMessage| == 58;
  }

  /** `Decompressor::apply`: start from four times the input size, capped at
      the limit, and run the growth loop. A written result is what libdeflate
      produced in a buffer no larger than the limit. */
  function Apply(dec: Decompressor, fun: (seq<byte>, nat) -> DecodeResult, data: seq<byte>): (r: Outcome)
    ensures r.Written? ==> exists n :: 0 <= n <= dec.maxBytes && fun(data, n) == Success(r.output)
    ensures r == Failed(LimitMessage) ==> fun(data, dec.maxBytes).InsufficientSpace?
  {
    var guess := Min(4 * |data|, dec.maxBytes);
    var e := GrowLoop(fun, data, guess, dec.maxBytes);
    Finish(e)
  }

  /** `Decompressor::operator()`: gzip is tried first, then zlib; anything
      else leaves the output buffer as it was. */
  function Decompress(dec: Decompressor, lib: Libdeflate, output: seq<byte>, data: seq<byte>): (r: Outcome)
    ensures !IsCompressed(data) ==> r == Written(output)
  {
    if IsGzip(data) then Apply(dec, lib.gzipDecompress, data)
    else if IsZlib(data) then Apply(dec, lib.zlibDecompress, data)
    else Written(output)
  }

  /** The growth loop finds the stream's size: if the stream decompresses
      exactly when the space holds `want` bytes, and the limit allows that
      many, the loop ends with the decompressed bytes. */
  lemma {:induction false} GrowLoopReaches(fun: (seq<byte>, nat) -> DecodeResult, data: seq<byte>, want: seq<byte>, size: nat, max: nat)
    requires size <= max && |want| <= max
    requires forall n: nat :: fun(data, n) == if n >= |want| then Success(want) else InsufficientSpace
    ensures GrowLoop(fun, data, size, max).Stopped?
    ensures GrowLoop(fun, data, size, max).result == Success(want)
    decreases max - size
  {
    if size < |want| {
      GrowLoopReaches(fun, data, want, NextSize(size, max), max);
    }
  }

  /** Decompressing what the compressor wrote gives back the input, whenever
      the input fits both limits. */
  lemma RoundTrip(c: Compressor, dec: Decompressor, lib: Libdeflate, output: seq<byte>, data: seq<byte>)
    requires Documented(lib)
    requires |data| <= c.maxBytes && |data| <= dec.maxBytes
    ensures Compress(c, lib, data).Written?
    ensures Decompress(dec, lib, output, Compress(c, lib, data).output) == Written(data)
  {
    CompressSucceedsWithinLimit(c, lib, data);
    var stream := Compress(c, lib, data).output;
    var bound := lib.gzipCompressBound(|data|);
    assert stream == lib.gzipCompress(c.level, data, bound);
    assert forall n: nat :: lib.gzipDecompress(stream, n) == if n >= |data| then Success(data) else InsufficientSpace;
    var guess := Min(4 * |stream|, dec.maxBytes);
    GrowLoopReaches(lib.gzipDecompress, stream, data, guess, dec.maxBytes);
  }

  /** With both default limits, every input of up to 2000000000 bytes
      survives a compression round trip. */
  lemma DefaultsRoundTrip(lib: Libdeflate, output: seq<byte>, data: seq<byte>)
    requires Documented(lib)
    ensures |data| <= 2000000000 ==>
      Decompress(DefaultDecompressor, lib, output, Compress(DefaultCompressor, lib, data).output) == Written(data)
    ensures |data| > 2000000000 ==> Compress(DefaultCompressor, lib, data) == Failed(TooLargeMessage)
  {
    if |data| <= 2000000000 {
      RoundTrip(DefaultCompressor, DefaultDecompressor, lib, output, data);
    }
  }

  /** A gzip stream goes to libdeflate's gzip decoder: when that decoder
      yields `want` from |want| bytes of space on, within the limit,
      decompression writes `want`. */
  lemma GzipDecompresses(dec: Decompressor, lib: Libdeflate, output: seq<byte>, data: seq<byte>, want: seq<byte>)
    requires IsGzip(data) && |want| <= dec.maxBytes
    requires forall n: nat :: lib.gzipDecompress(data, n) == if n >= |want| then Success(want) else InsufficientSpace
    ensures Decompress(dec, lib, output, data) == Written(want)
  {
    GrowLoopReaches(lib.gzipDecompress, data, want, Min(4 * |data|, dec.maxBytes), dec.maxBytes);
  }

  /** A zlib stream goes to libdeflate's zlib decoder, whatever the gzip
      decoder would make of it. */
  lemma ZlibDecompresses(dec: Decompressor, lib: Libdeflate, output: seq<byte>, data: seq<byte>, want: seq<byte>)
    requires IsZlib(data) && |want| <= dec.maxBytes
    requires forall n: nat :: lib.zlibDecompress(data, n) == if n >= |want| then Success(want) else InsufficientSpace
    ensures Decompress(dec, lib, output, data) == Written(want)
  {
    SniffersDisjoint(data, data);
    GrowLoopReaches(lib.zlibDecompress, data, want, Min(4 * |data|, dec.maxBytes), dec.maxBytes);
  }

  /** Whatever a documented libdeflate decompresses fits in the limit. */
  lemma DecompressWithinLimit(dec: Decompressor, lib: Libdeflate, output: seq<byte>, data: seq<byte>)
    requires Documented(lib)
    ensures IsCompressed(data) && Decompress(dec, lib, output, data).Written? ==>
      |Decompress(dec, lib, output, data).output| <= dec.maxBytes
  {
    var r := Decompress(dec, lib, output, data);
    if IsCompressed(data) && r.Written? {
      if IsGzip(data) {
        var n :| 0 <= n <= dec.maxBytes && lib.gzipDecompress(data, n) == Success(r.output);
      } else {
        var n :| 0 <= n <= dec.maxBytes && lib.zlibDecompress(data, n) == Success(r.output);
      }
    }
  }

  // --------------------------------------------------- growth as written

  /** An output buffer as the growth step sees it: its size and capacity. */
  datatype Buffer = Buffer(size: nat, capacity: nat)

  /** `resize(n)`: the capacity stays if it holds n; otherwise the container
      reallocates to the capacity its growth policy picks, at least n. */
  function Resize(b: Buffer, n: nat, growth: (nat, nat) -> nat): (r: Buffer)
    ensures r.size == n && r.capacity >= n && r.capacity >= Min(b.capacity, n)
  {
    if n <= b.capacity then Buffer(n, b.capacity)
    else
      var c := growth(b.capacity, n);
      Buffer(n, if c >= n then c else n)
  }

  /** The growth loop as written: the next size is
      `min((capacity << 1) - size, max)`; fuel bounds the rounds. */
  function GrowLoopAsWritten(fun: (seq<byte>, nat) -> DecodeResult, data: seq<byte>, b: Buffer, max: nat,
                             growth: (nat, nat) -> nat, fuel: nat): (r: LoopExit)
    requires b.size <= b.capacity && b.size <= max
    ensures r.Stopped? ==> r.size <= max && r.result == fun(data, r.size) && !r.result.InsufficientSpace?
    ensures r.LimitReached? ==> fun(data, max).InsufficientSpace?
    decreases fuel
  {
    if fuel == 0 then OutOfFuel
    else
      var result := fun(data, b.size);
      if !result.InsufficientSpace? then Stopped(b.size, result)
      else if b.size == max then LimitReached
      else
        var next := Min(2 * b.capacity - b.size, max);
        GrowLoopAsWritten(fun, data, Resize(b, next, growth), max, growth, fuel - 1)
  }

  /** How a run of the as-written wrapper ends within the fuel given: with
      an outcome, or still looping. */
  datatype Run = Ended(outcome: Outcome) | StillLooping

  /** `Decompressor::apply` as written: the caller's buffer (size and
      capacity) is resized to the guess, and the as-written loop runs. */
  function ApplyAsWritten(dec: Decompressor, fun: (seq<byte>, nat) -> DecodeResult, data: seq<byte>,
                          out: Buffer, growth: (nat, nat) -> nat, fuel: nat): (r: Run)
    requires out.size <= out.capacity
    ensures r.Ended? && r.outcome.Written? ==>
      exists n :: 0 <= n <= dec.maxBytes && fun(data, n) == Success(r.outcome.output)
    ensures r == Ended(Failed(LimitMessage)) ==> fun(data, dec.maxBytes).InsufficientSpace?
  {
    var guess := Min(4 * |data|, dec.maxBytes);
    var e := GrowLoopAsWritten(fun, data, Resize(out, guess, growth), dec.maxBytes, growth, fuel);
    if e.OutOfFuel? then StillLooping else Ended(Finish(e))
  }

  /** `Decompressor::operator()` over the as-written `apply`. */
  function DecompressAsWritten(dec: Decompressor, lib: Libdeflate, output: seq<byte>, data: seq<byte>,
                               out: Buffer, growth: (nat, nat) -> nat, fuel: nat): (r: Run)
    requires out.size <= out.capacity
    ensures !IsCompressed(data) ==> r == Ended(Written(output))
  {
    if IsGzip(data) then ApplyAsWritten(dec, lib.gzipDecompress, data, out, growth, fuel)
    else if IsZlib(data) then ApplyAsWritten(dec, lib.zlibDecompress, data, out, growth, fuel)
    else Ended(Written(output))
  }

  /** Whenever the as-written wrapper does end on a stream that fits from
      some size on within the limit, it ends as the corrected one does: the
      two differ only in termination. */
  lemma ApplyAsWrittenAgrees(dec: Decompressor, fun: (seq<byte>, nat) -> DecodeResult, data: seq<byte>,
                             want: seq<byte>, out: Buffer, growth: (nat, nat) -> nat, fuel: nat)
    requires out.size <= out.capacity && |want| <= dec.maxBytes
    requires forall n: nat :: fun(data, n) == if n >= |want| then Success(want) else InsufficientSpace
    ensures Apply(dec, fun, data) == Written(want)
    ensures ApplyAsWritten(dec, fun, data, out, growth, fuel).Ended? ==>
      ApplyAsWritten(dec, fun, data, out, growth, fuel).outcome == Apply(dec, fun, data)
  {
    GrowLoopReaches(fun, data, want, Min(4 * |data|, dec.maxBytes), dec.maxBytes);
  }

  /** libstdc++'s std::string growth: a reallocation takes the requested
      size, or twice the old capacity when that is larger. */
  function LibstdcxxGrowth(capacity: nat, n: nat): nat {
    if n < 2 * capacity then 2 * capacity else n
  }

  /** A buffer whose capacity equals its size is a fixed point of the
      as-written step: `(capacity << 1) - size` is the size again. */
  lemma {:induction false} AsWrittenStalls(fun: (seq<byte>, nat) -> DecodeResult, data: seq<byte>, size: nat, max: nat,
                                           growth: (nat, nat) -> nat, fuel: nat)
    requires size < max && fun(data, size).InsufficientSpace?
    ensures GrowLoopAsWritten(fun, data, Buffer(size, size), max, growth, fuel) == OutOfFuel
    decreases fuel
  {
    if fuel > 0 {
      assert Resize(Buffer(size, size), Min(2 * size - size, max), growth) == Buffer(size, size);
      AsWrittenStalls(fun, data, size, max, growth, fuel - 1);
    }
  }

  /** The as-written loop never ends for a gzip stream of at least eight
      bytes that inflates to more than four times its size, decompressed
      into a fresh std::string (capacity 15) below the default limit: the
      first resize makes capacity equal size, and the loop then repeats the
      same call forever. The corrected loop returns the inflated bytes. */
  lemma AsWrittenNeverEnds(fun: (seq<byte>, nat) -> DecodeResult, data: seq<byte>, want: seq<byte>, fuel: nat)
    requires 8 <= |data| && 4 * |data| < |want| <= DefaultDecompressor.maxBytes
    requires forall n: nat :: fun(data, n) == if n >= |want| then Success(want) else InsufficientSpace
    ensures GrowLoopAsWritten(fun, data, Resize(Buffer(0, 15), 4 * |data|, LibstdcxxGrowth),
                              DefaultDecompressor.maxBytes, LibstdcxxGrowth, fuel) == OutOfFuel
    ensures ApplyAsWritten(DefaultDecompressor, fun, data, Buffer(0, 15), LibstdcxxGrowth, fuel) == StillLooping
    ensures Apply(DefaultDecompressor, fun, data) == Written(want)
  {
    var g := 4 * |data|;
    assert Resize(Buffer(0, 15), g, LibstdcxxGrowth) == Buffer(g, g);
    AsWrittenStalls(fun, data, g, DefaultDecompressor.maxBytes, LibstdcxxGrowth, fuel);
    GrowLoopReaches(fun, data, want, g, DefaultDecompressor.maxBytes);
  }
}

=== FILE: feature_builder.dfy ===
/**
 The overzoomed feature builder: decodes one feature's geometry through the
 handlers, clips it to the buffered target box, and writes what survives.

 The boost.geometry algorithms it calls (the envelope/box intersection test
 and the clipping `intersection`) are not modelled; they are fields of the
 `Boost` record, and the only thing assumed about them, in `ClipsInto`, is
 that clipping output lies in the box. The vtzero feature builders are
 modelled by the geometry they would be given; copying properties is not
 modelled and committing a feature is returning `Some`.
 */
module FeatureBuilder {
  import opened Numeric
  import opened Geometry
  import opened FeatureHandlers
  import opened ZxyMath

  datatype Option<T> = None | Some(value: T)

  /** A decoded feature as the builder sees it: its id and its geometry,
      by vtzero geometry type. */
  datatype SourceGeometry =
    | PointGeometry(points: seq<Point>)
    | LineStringGeometry(parts: seq<seq<Point>>)
    | PolygonGeometry(rings: seq<SourceRing>)
    | UnknownGeometry

  datatype Feature = Feature(id: Option<nat>, geometry: SourceGeometry)

  /** A linestring as handed to vtzero: the count announced by
      `add_linestring` and the points then set. */
  datatype EncodedLine = EncodedLine(declared: nat, points: seq<Point>)

  datatype EncodedGeometry =
    | EncodedPoints(points: seq<Point>)
    | EncodedLineStrings(lines: seq<EncodedLine>)
    | EncodedPolygon(rings: seq<seq<Point>>)

  /** A committed feature: the id copied from the source and its geometry. */
  datatype BuiltFeature = BuiltFeature(id: Option<nat>, geometry: EncodedGeometry)

  /** The boost.geometry calls: `intersects(envelope(ring), bbox)`, and
      `intersection` of a multi-linestring or of one polygon (rings, the
      first being the exterior) with the box. */
  datatype Boost = Boost(
    envelopeIntersects: (seq<Point>, Box) -> bool,
    clipLines: (seq<seq<Point>>, Box) -> seq<seq<Point>>,
    clipPolygon: (seq<seq<Point>>, Box) -> seq<seq<seq<Point>>>)

  /** What clipping guarantees: every vertex it outputs lies in the box. */
  ghost predicate ClipsInto(boost: Boost, bbox: Box) {
    && (forall ls :: AllPartsCovered(boost.clipLines(ls, bbox), bbox))
    && (forall poly, k :: 0 <= k < |boost.clipPolygon(poly, bbox)| ==>
          AllPartsCovered(boost.clipPolygon(poly, bbox)[k], bbox))
  }

  /** All vertices of an encoded geometry lie in the box. */
  predicate EncodedCovered(g: EncodedGeometry, bbox: Box) {
    match g
    case EncodedPoints(pts) => AllCovered(pts, bbox)
    case EncodedLineStrings(lines) => forall k :: 0 <= k < |lines| ==> AllCovered(lines[k].points, bbox)
    case EncodedPolygon(rings) => AllPartsCovered(rings, bbox)
  }

  // ------------------------------------------------------ linestring output

  /** The linestring writer's inner loop: after the first point, set every
      point that differs from the last one set. */
  function EmitDistinct(last: Point, rest: seq<Point>): seq<Point>
    decreases |rest|
  {
    if |rest| == 0 then []
    else if rest[0] != last then [rest[0]] + EmitDistinct(rest[0], rest[1..])
    else EmitDistinct(last, rest[1..])
  }

  /** The points the writer sets for one clipped linestring. */
  function WrittenPoints(l: seq<Point>): seq<Point>
    requires |l| > 0
  {
    [l[0]] + EmitDistinct(l[0], l[1..])
  }

  lemma DedupSnoc(pre: seq<Point>, r: Point)
    requires |pre| > 0
    ensures Dedup(pre + [r]) == if pre[|pre| - 1] == r then Dedup(pre) else Dedup(pre) + [r]
  {
    var s := pre + [r];
    assert s[..|s| - 1] == pre;
  }

  lemma EmitDistinctUnfold(last: Point, rest: seq<Point>)
    requires |rest| > 0
    ensures EmitDistinct(last, rest) ==
      if rest[0] != last then [rest[0]] + EmitDistinct(rest[0], rest[1..]) else EmitDistinct(rest[0], rest[1..])
  {
  }

  lemma {:induction false} EmitDistinctExtendsDedup(pre: seq<Point>, rest: seq<Point>)
    requires |pre| > 0
    ensures Dedup(pre + rest) == Dedup(pre) + EmitDistinct(pre[|pre| - 1], rest)
    decreases |rest|
  {
    if |rest| == 0 {
      assert pre + rest == pre;
    } else {
      var last, r, tail := pre[|pre| - 1], rest[0], rest[1..];
      var pre' := pre + [r];
      assert pre'[|pre'| - 1] == r;
      EmitDistinctExtendsDedup(pre', tail);
      assert pre + rest == pre' + tail;
      DedupSnoc(pre, r);
      EmitDistinctUnfold(last, rest);
      var e := EmitDistinct(r, tail);
      if last == r {
        calc {
          Dedup(pre + rest);
          Dedup(pre' + tail);
          Dedup(pre') + e;
          Dedup(pre) + e;
        }
      } else {
        calc {
          Dedup(pre + rest);
          Dedup(pre' + tail);
          Dedup(pre') + e;
          (Dedup(pre) + [r]) + e;
          Dedup(pre) + ([r] + e);
        }
      }
    }
  }

  /** The writer's loop sets exactly the de-duplicated linestring. */
  lemma WrittenPointsIsDedup(l: seq<Point>)
    requires |l| > 0
    ensures WrittenPoints(l) == Dedup(l)
  {
    EmitDistinctExtendsDedup([l[0]], l[1..]);
    assert [l[0]] + l[1..] == l;
    assert Dedup([l[0]]) == [l[0]];
  }

  datatype LineEncoding = LineEncoding(lines: seq<EncodedLine>, valid: bool)

  /** The linestring writer as written: every clipped part with more than
      one point is announced with its full size, then its de-duplicated
      points are set; the feature is valid once some part set a second
      point. */
  function EncodeLinesAsWritten(result: seq<seq<Point>>): LineEncoding
    decreases |result|
  {
    if |result| == 0 then LineEncoding([], false)
    else
      var e := EncodeLinesAsWritten(result[..|result| - 1]);
      var l := result[|result| - 1];
      if |l| > 1 then
        var pts := WrittenPoints(l);
        LineEncoding(e.lines + [EncodedLine(|l|, pts)], e.valid || |pts| > 1)
      else e
  }

  /** The writer as evidently intended: the announced count is the number of
      points actually set, and a part left with fewer than two distinct
      points is not written at all. */
  function EncodeLines(result: seq<seq<Point>>): LineEncoding
    decreases |result|
  {
    if |result| == 0 then LineEncoding([], false)
    else
      var e := EncodeLines(result[..|result| - 1]);
      var l := result[|result| - 1];
      if |l| > 1 then
        var pts := WrittenPoints(l);
        if |pts| > 1 then LineEncoding(e.lines + [EncodedLine(|pts|, pts)], true) else e
      else e
  }

  /** Some clipped part has a point other than its first. */
  predicate SomePartHasLength(result: seq<seq<Point>>) {
    exists k :: 0 <= k < |result| && HasSecondVertex(result[k])
  }

  /** The reference for the linestring writer: each clipped part with a
      point other than its first becomes one linestring, announced with the
      size of its de-duplication and made of it; every other part is
      dropped. */
  function LinesRef(result: seq<seq<Point>>): seq<EncodedLine>
    decreases |result|
  {
    if |result| == 0 then []
    else
      var l := result[|result| - 1];
      LinesRef(result[..|result| - 1]) +
        (if HasSecondVertex(l) then [EncodedLine(|Dedup(l)|, Dedup(l))] else [])
  }

  /** The corrected writer writes exactly the reference's linestrings, in
      order: no part that has length is dropped. */
  lemma {:induction false} EncodeLinesIsRef(result: seq<seq<Point>>)
    ensures EncodeLines(result).lines == LinesRef(result)
    decreases |result|
  {
    if |result| > 0 {
      var l := result[|result| - 1];
      EncodeLinesIsRef(result[..|result| - 1]);
      DedupLengthAboveOne(l);
      if |l| > 0 {
        WrittenPointsIsDedup(l);
      }
      if |l| <= 1 {
        assert !HasSecondVertex(l);
      }
    }
  }

  /** Every linestring the corrected writer announces gets exactly the
      announced number of points, at least two, with no zero-length segment;
      each is a de-duplicated clipped part, so it lies where the part lies;
      and the feature is committed exactly when some clipped part has a
      point different from its first. */
  lemma EncodeLinesWellFormed(result: seq<seq<Point>>, bbox: Box)
    ensures forall k :: 0 <= k < |EncodeLines(result).lines| ==>
      && EncodeLines(result).lines[k].declared == |EncodeLines(result).lines[k].points|
      && EncodeLines(result).lines[k].declared > 1
      && NoRepeats(EncodeLines(result).lines[k].points)
    ensures AllPartsCovered(result, bbox) ==>
      forall k :: 0 <= k < |EncodeLines(result).lines| ==> AllCovered(EncodeLines(result).lines[k].points, bbox)
    ensures EncodeLines(result).valid <==> |EncodeLines(result).lines| > 0
    ensures EncodeLines(result).valid <==> SomePartHasLength(result)
  {
    EncodeLinesShape(result);
    if AllPartsCovered(result, bbox) {
      EncodeLinesCovered(result, bbox);
    }
    EncodeLinesValid(result);
  }

  predicate WellFormedLine(e: EncodedLine) {
    e.declared == |e.points| && e.declared > 1 && NoRepeats(e.points)
  }

  lemma {:induction false} EncodeLinesShape(result: seq<seq<Point>>)
    ensures forall k :: 0 <= k < |EncodeLines(result).lines| ==> WellFormedLine(EncodeLines(result).lines[k])
    decreases |result|
  {
    if |result| > 0 {
      var init, l := result[..|result| - 1], result[|result| - 1];
      EncodeLinesShape(init);
      DedupNoRepeats(l);
      if |l| > 0 {
        WrittenPointsIsDedup(l);
      }
    }
  }

  lemma {:induction false} EncodeLinesCovered(result: seq<seq<Point>>, bbox: Box)
    requires AllPartsCovered(result, bbox)
    ensures forall k :: 0 <= k < |EncodeLines(result).lines| ==> AllCovered(EncodeLines(result).lines[k].points, bbox)
    decreases |result|
  {
    if |result| > 0 {
      var init, l := result[..|result| - 1], result[|result| - 1];
      assert AllPartsCovered(init, bbox) by {
        forall k | 0 <= k < |init| ensures AllCovered(init[k], bbox) {
          assert init[k] == result[k];
        }
      }
      EncodeLinesCovered(init, bbox);
      assert AllCovered(l, bbox);
      DedupElements(l);
      if |l| > 0 {
        WrittenPointsIsDedup(l);
      }
    }
  }

  lemma {:induction false} EncodeLinesValid(result: seq<seq<Point>>)
    ensures EncodeLines(result).valid <==> |EncodeLines(result).lines| > 0
    ensures EncodeLines(result).valid <==> SomePartHasLength(result)
    decreases |result|
  {
    if |result| > 0 {
      var init, l := result[..|result| - 1], result[|result| - 1];
      EncodeLinesValid(init);
      DedupLengthAboveOne(l);
      if |l| > 0 {
        WrittenPointsIsDedup(l);
      }
      if SomePartHasLength(init) {
        var k :| 0 <= k < |init| && HasSecondVertex(init[k]);
        assert result[k] == init[k];
      }
      if SomePartHasLength(result) && !SomePartHasLength(init) {
        var k :| 0 <= k < |result| && HasSecondVertex(result[k]);
        assert k == |result| - 1;
      }
    }
  }

  /** The as-written writer commits the same features as the corrected one,
      and writes the same thing whenever no clipped part repeats a point. */
  lemma {:induction false} EncodeLinesAsWrittenAgrees(result: seq<seq<Point>>)
    ensures EncodeLinesAsWritten(result).valid == EncodeLines(result).valid
    ensures (forall k :: 0 <= k < |result| ==> NoRepeats(result[k])) ==>
      EncodeLinesAsWritten(result) == EncodeLines(result)
    decreases |result|
  {
    if |result| > 0 {
      var init, l := result[..|result| - 1], result[|result| - 1];
      EncodeLinesAsWrittenAgrees(init);
      if |l| > 1 {
        WrittenPointsIsDedup(l);
        DedupLengthAboveOne(l);
        EncodeLinesValid(init);
        if NoRepeats(l) {
          DedupOfNoRepeats(l);
        }
      }
    }
  }

  /** The as-written writer announces three points for a clipped line that
      repeats its first point, then sets only two: vtzero writes the
      LineTo count from the announced size, so the encoded geometry claims
      one vertex more than it holds. */
  lemma LineCountMismatch()
    ensures EncodeLinesAsWritten([[Point(0, 0), Point(0, 0), Point(5, 5)]]) ==
      LineEncoding([EncodedLine(3, [Point(0, 0), Point(5, 5)])], true)
    ensures EncodeLines([[Point(0, 0), Point(0, 0), Point(5, 5)]]) ==
      LineEncoding([EncodedLine(2, [Point(0, 0), Point(5, 5)])], true)
  {
    var o, q := Point(0, 0), Point(5, 5);
    var l := [o, o, q];
    var result := [l];
    assert l[1..] == [o, q];
    assert [o, q][1..] == [q];
    assert [q][1..] == [];
    assert EmitDistinct(o, [q]) == [q];
    assert EmitDistinct(o, [o, q]) == [q];
    assert WrittenPoints(l) == [o, q];
    assert result[..0] == [];
    assert result[|result| - 1] == l;
  }

  // ------------------------------------------------------ polygon grouping

  /** The index of the last outer ring, the one that governs the rings after
      it. */
  function LastOuter(rings: seq<AnnotatedRing>): (r: Option<nat>)
    ensures r.Some? ==> (r.value < |rings| && rings[r.value].ringType == Outer &&
      forall k :: r.value < k < |rings| ==> rings[k].ringType != Outer)
    ensures r.None? ==> forall k :: 0 <= k < |rings| ==> rings[k].ringType != Outer
    decreases |rings|
  {
    if |rings| == 0 then None
    else if rings[|rings| - 1].ringType == Outer then Some(|rings| - 1)
    else LastOuter(rings[..|rings| - 1])
  }

  /** Whether the grouping keeps ring i: it has more than three points and
      the outer ring governing it (possibly itself) exists and touches the
      box. Rings before the first outer ring are never kept. */
  predicate Kept(boost: Boost, bbox: Box, rings: seq<AnnotatedRing>, i: nat)
    requires i < |rings|
  {
    |rings[i].points| > 3 && GoverningTouches(boost, bbox, rings[..i + 1])
  }

  /** The reference for the grouping: the kept rings, in order. */
  function KeptRings(boost: Boost, bbox: Box, rings: seq<AnnotatedRing>): seq<seq<Point>>
    decreases |rings|
  {
    if |rings| == 0 then []
    else
      KeptRings(boost, bbox, rings[..|rings| - 1]) +
        (if Kept(boost, bbox, rings, |rings| - 1) then [rings[|rings| - 1].points] else [])
  }

  /** How many outer rings touch the box. */
  function OpeningOuters(boost: Boost, bbox: Box, rings: seq<AnnotatedRing>): nat
    decreases |rings|
  {
    if |rings| == 0 then 0
    else
      var r := rings[|rings| - 1];
      OpeningOuters(boost, bbox, rings[..|rings| - 1]) +
        (if r.ringType == Outer && boost.envelopeIntersects(r.points, bbox) then 1 else 0)
  }

  /** The rings of a sequence of polygons, polygon after polygon. */
  function Flatten(ps: seq<seq<seq<Point>>>): seq<seq<Point>>
    decreases |ps|
  {
    if |ps| == 0 then [] else Flatten(ps[..|ps| - 1]) + ps[|ps| - 1]
  }

  datatype Grouping = Grouping(polygons: seq<seq<seq<Point>>>, process: bool)

  /** The ring-grouping loop: an outer ring decides, by whether its envelope
      touches the box, if it and the rings after it are processed, and opens
      a new polygon when they are; a processed ring with more than three
      points joins the newest polygon. Only polygons that an outer ring
      opened exist, and no grouped ring has three points or fewer. */
  function GroupRings(boost: Boost, bbox: Box, rings: seq<AnnotatedRing>): (g: Grouping)
    ensures g.process ==> |g.polygons| > 0
    ensures OnlyLargeRings(g.polygons)
    decreases |rings|
  {
    if |rings| == 0 then Grouping([], false)
    else
      var g := GroupRings(boost, bbox, rings[..|rings| - 1]);
      var r := rings[|rings| - 1];
      var process := if r.ringType == Outer then boost.envelopeIntersects(r.points, bbox) else g.process;
      var opens := r.ringType == Outer && process;
      var polygons := if opens then g.polygons + [[]] else g.polygons;
      OnlyLargeRingsGrow(g.polygons, opens, process && |r.points| > 3, r.points);
      if process && |r.points| > 3 then Grouping(AppendToLast(polygons, r.points), process)
      else Grouping(polygons, process)
  }

  /** Every ring of every polygon has more than three points. */
  predicate OnlyLargeRings(ps: seq<seq<seq<Point>>>) {
    forall k, m :: 0 <= k < |ps| && 0 <= m < |ps[k]| ==> |ps[k][m]| > 3
  }

  lemma OnlyLargeRingsGrow(ps: seq<seq<seq<Point>>>, open: bool, add: bool, x: seq<Point>)
    requires OnlyLargeRings(ps)
    requires add ==> |x| > 3 && (open || |ps| > 0)
    ensures OnlyLargeRings(if open then ps + [[]] else ps)
    ensures add ==> OnlyLargeRings(AppendToLast(if open then ps + [[]] else ps, x))
  {
    var qs := if open then ps + [[]] else ps;
    assert OnlyLargeRings(qs) by {
      forall k, m | 0 <= k < |qs| && 0 <= m < |qs[k]| ensures |qs[k][m]| > 3 {
        assert k < |ps|;
        assert qs[k] == ps[k];
      }
    }
    if add {
      var a := AppendToLast(qs, x);
      forall k, m | 0 <= k < |a| && 0 <= m < |a[k]| ensures |a[k][m]| > 3 {
        if k < |qs| - 1 {
          assert a[k] == a[..|a| - 1][k] == qs[..|qs| - 1][k] == qs[k];
        } else if m < |qs[k]| {
          assert a[k][m] == qs[k][m];
        }
      }
    }
  }

  lemma FlattenSnoc(ps: seq<seq<seq<Point>>>, p: seq<seq<Point>>)
    ensures Flatten(ps + [p]) == Flatten(ps) + p
  {
    assert (ps + [p])[..|ps|] == ps;
  }

  /** Adding a ring to the newest polygon adds it at the end of the
      flattening. */
  lemma FlattenAddToNewest(init: seq<seq<seq<Point>>>, last: seq<seq<Point>>, x: seq<Point>)
    ensures Flatten(init + [last + [x]]) == Flatten(init + [last]) + [x]
  {
    FlattenSnoc(init, last);
    FlattenSnoc(init, last + [x]);
    var f := Flatten(init);
    assert f + (last + [x]) == (f + last) + [x];
  }

  /** The grouping keeps exactly the reference's rings, in order; it opens
      one polygon per outer ring touching the box; and it is processing
      exactly when the governing outer ring touches the box. */
  lemma GroupRingsKeepsKept(boost: Boost, bbox: Box, rings: seq<AnnotatedRing>)
    ensures GroupRings(boost, bbox, rings).process <==> GoverningTouches(boost, bbox, rings)
    ensures Flatten(GroupRings(boost, bbox, rings).polygons) == KeptRings(boost, bbox, rings)
    ensures |GroupRings(boost, bbox, rings).polygons| == OpeningOuters(boost, bbox, rings)
    ensures forall k :: 0 <= k < |GroupRings(boost, bbox, rings).polygons| ==>
      GroupRings(boost, bbox, rings).polygons[k] == RingsOf(boost, bbox, rings, k)
  {
    GroupRingsPolygons(boost, bbox, rings);
    GroupRingsProcess(boost, bbox, rings);
    GroupRingsFlatten(boost, bbox, rings);
    GroupRingsCount(boost, bbox, rings);
  }

  /** The reference for polygon k of the grouping: the kept rings, in order,
      that come after the (k+1)-th outer ring touching the box and before the
      next one; that is, the kept rings i for which the rings up to and
      including i hold exactly k + 1 such outer rings. */
  function RingsOf(boost: Boost, bbox: Box, rings: seq<AnnotatedRing>, k: nat): seq<seq<Point>>
    decreases |rings|
  {
    if |rings| == 0 then []
    else
      RingsOf(boost, bbox, rings[..|rings| - 1], k) +
        (if Kept(boost, bbox, rings, |rings| - 1) && OpeningOuters(boost, bbox, rings) == k + 1
         then [rings[|rings| - 1].points] else [])
  }

  lemma {:induction false} RingsOfBeyond(boost: Boost, bbox: Box, rings: seq<AnnotatedRing>, k: nat)
    requires k >= OpeningOuters(boost, bbox, rings)
    ensures RingsOf(boost, bbox, rings, k) == []
    decreases |rings|
  {
    if |rings| > 0 {
      RingsOfBeyond(boost, bbox, rings[..|rings| - 1], k);
    }
  }

  /** Each polygon of the grouping holds exactly its outer ring's kept rings:
      the outer ring that opened it (when large enough) and the inner rings
      after it, up to the next outer ring touching the box. */
  lemma {:induction false} GroupRingsPolygons(boost: Boost, bbox: Box, rings: seq<AnnotatedRing>)
    ensures forall k :: 0 <= k < |GroupRings(boost, bbox, rings).polygons| ==>
      GroupRings(boost, bbox, rings).polygons[k] == RingsOf(boost, bbox, rings, k)
    decreases |rings|
  {
    if |rings| > 0 {
      var init, r := rings[..|rings| - 1], rings[|rings| - 1];
      GroupRingsPolygons(boost, bbox, init);
      GroupRingsProcess(boost, bbox, rings);
      GroupRingsCount(boost, bbox, init);
      var g, g2 := GroupRings(boost, bbox, init), GroupRings(boost, bbox, rings);
      assert rings[..|rings| - 1 + 1] == rings;
      var kept := g2.process && |r.points| > 3;
      assert Kept(boost, bbox, rings, |rings| - 1) == kept;
      var opens := r.ringType == Outer && g2.process;
      var n := |g.polygons|;
      assert OpeningOuters(boost, bbox, rings) == if opens then n + 1 else n;
      var polygons := if opens then g.polygons + [[]] else g.polygons;
      assert g2.polygons == if kept then AppendToLast(polygons, r.points) else polygons;
      forall k | 0 <= k < |g2.polygons|
        ensures g2.polygons[k] == RingsOf(boost, bbox, rings, k)
      {
        assert RingsOf(boost, bbox, rings, k) == RingsOf(boost, bbox, init, k) +
          (if kept && OpeningOuters(boost, bbox, rings) == k + 1 then [r.points] else []);
        if k < n && !(kept && !opens && k == n - 1) {
          assert g2.polygons[k] == g.polygons[k];
          assert g.polygons[k] == RingsOf(boost, bbox, init, k);
        } else if k == n {
          RingsOfBeyond(boost, bbox, init, k);
        }
      }
    }
  }

  /** The last outer ring exists and its envelope touches the box. */
  predicate GoverningTouches(boost: Boost, bbox: Box, rings: seq<AnnotatedRing>) {
    match LastOuter(rings)
    case Some(j) => boost.envelopeIntersects(rings[j].points, bbox)
    case None => false
  }

  lemma {:induction false} GroupRingsProcess(boost: Boost, bbox: Box, rings: seq<AnnotatedRing>)
    ensures GroupRings(boost, bbox, rings).process <==> GoverningTouches(boost, bbox, rings)
    decreases |rings|
  {
    if |rings| > 0 {
      var init, r := rings[..|rings| - 1], rings[|rings| - 1];
      GroupRingsProcess(boost, bbox, init);
      if r.ringType != Outer {
        assert LastOuter(rings) == LastOuter(init);
        if LastOuter(init).Some? {
          assert rings[LastOuter(init).value] == init[LastOuter(init).value];
        }
      }
    }
  }

  lemma {:induction false} GroupRingsFlatten(boost: Boost, bbox: Box, rings: seq<AnnotatedRing>)
    ensures Flatten(GroupRings(boost, bbox, rings).polygons) == KeptRings(boost, bbox, rings)
    decreases |rings|
  {
    if |rings| > 0 {
      var init, r := rings[..|rings| - 1], rings[|rings| - 1];
      GroupRingsFlatten(boost, bbox, init);
      GroupRingsProcess(boost, bbox, rings);
      var g, g2 := GroupRings(boost, bbox, init), GroupRings(boost, bbox, rings);
      assert rings[..|rings| - 1 + 1] == rings;
      assert KeptRings(boost, bbox, rings) ==
        KeptRings(boost, bbox, init) + (if g2.process && |r.points| > 3 then [r.points] else []);
      var opens := r.ringType == Outer && g2.process;
      var polygons := if opens then g.polygons + [[]] else g.polygons;
      assert Flatten(polygons) == Flatten(g.polygons) by {
        if opens { FlattenSnoc(g.polygons, []); }
      }
      if g2.process && |r.points| > 3 {
        var n := |polygons|;
        assert g2.polygons == polygons[..n - 1] + [polygons[n - 1] + [r.points]];
        assert polygons == polygons[..n - 1] + [polygons[n - 1]];
        FlattenAddToNewest(polygons[..n - 1], polygons[n - 1], r.points);
      } else {
        assert g2.polygons == polygons;
      }
    }
  }

  lemma {:induction false} GroupRingsCount(boost: Boost, bbox: Box, rings: seq<AnnotatedRing>)
    ensures |GroupRings(boost, bbox, rings).polygons| == OpeningOuters(boost, bbox, rings)
    decreases |rings|
  {
    if |rings| > 0 {
      GroupRingsCount(boost, bbox, rings[..|rings| - 1]);
    }
  }

  // ------------------------------------------------------- polygon output

  /** The rings of one clipped polygon that the writer adds: those with more
      than three points, in order. */
  function LargeRings(p: seq<seq<Point>>): (r: seq<seq<Point>>)
    ensures forall k :: 0 <= k < |r| ==> |r[k]| > 3
    decreases |p|
  {
    if |p| == 0 then []
    else
      var rest := LargeRings(p[..|p| - 1]);
      if |p[|p| - 1]| > 3 then rest + [p[|p| - 1]] else rest
  }

  /** The rings written for the polygons one clipping produced. */
  function ClippedRings(result: seq<seq<seq<Point>>>): (r: seq<seq<Point>>)
    ensures forall k :: 0 <= k < |r| ==> |r[k]| > 3
    decreases |result|
  {
    if |result| == 0 then []
    else
      var a, c := ClippedRings(result[..|result| - 1]), LargeRings(result[|result| - 1]);
      LargeConcat(a, c);
      a + c
  }

  /** The polygon writer: each grouped polygon is clipped and every ring of
      the result with more than three points is added. */
  function EncodePolygons(boost: Boost, bbox: Box, polygons: seq<seq<seq<Point>>>): (r: seq<seq<Point>>)
    ensures forall k :: 0 <= k < |r| ==> |r[k]| > 3
    decreases |polygons|
  {
    if |polygons| == 0 then []
    else
      var a := EncodePolygons(boost, bbox, polygons[..|polygons| - 1]);
      var c := ClippedRings(boost.clipPolygon(polygons[|polygons| - 1], bbox));
      LargeConcat(a, c);
      a + c
  }

  /** The writer writes nothing exactly when clipping every polygon leaves
      no ring of more than three points. */
  lemma {:induction false} EncodePolygonsEmptyIff(boost: Boost, bbox: Box, polygons: seq<seq<seq<Point>>>)
    ensures |EncodePolygons(boost, bbox, polygons)| == 0 <==>
      forall i :: 0 <= i < |polygons| ==> |ClippedRings(boost.clipPolygon(polygons[i], bbox))| == 0
    decreases |polygons|
  {
    if |polygons| > 0 {
      var init, last := polygons[..|polygons| - 1], polygons[|polygons| - 1];
      EncodePolygonsEmptyIff(boost, bbox, init);
      var a, c := EncodePolygons(boost, bbox, init), ClippedRings(boost.clipPolygon(last, bbox));
      assert EncodePolygons(boost, bbox, polygons) == a + c;
      if |a| + |c| == 0 {
        forall i | 0 <= i < |polygons| ensures |ClippedRings(boost.clipPolygon(polygons[i], bbox))| == 0 {
          if i < |init| { assert polygons[i] == init[i]; }
        }
      } else if |a| > 0 {
        var i :| 0 <= i < |init| && |ClippedRings(boost.clipPolygon(init[i], bbox))| != 0;
        assert polygons[i] == init[i];
      } else {
        assert polygons[|polygons| - 1] == last;
      }
    }
  }

  lemma LargeConcat(a: seq<seq<Point>>, c: seq<seq<Point>>)
    requires forall k :: 0 <= k < |a| ==> |a[k]| > 3
    requires forall k :: 0 <= k < |c| ==> |c[k]| > 3
    ensures forall k :: 0 <= k < |a + c| ==> |(a + c)[k]| > 3
    ensures |a + c| == 0 <==> |a| == 0 && |c| == 0
  {
    forall k | 0 <= k < |a + c| ensures |(a + c)[k]| > 3 {
      if k < |a| { assert (a + c)[k] == a[k]; } else { assert (a + c)[k] == c[k - |a|]; }
    }
  }

  /** All polygons clipping produces from the grouped polygons, in order. */
  function ClipAll(boost: Boost, bbox: Box, polygons: seq<seq<seq<Point>>>): seq<seq<seq<Point>>>
    decreases |polygons|
  {
    if |polygons| == 0 then []
    else ClipAll(boost, bbox, polygons[..|polygons| - 1]) + boost.clipPolygon(polygons[|polygons| - 1], bbox)
  }

  lemma {:induction false} FlattenConcat(a: seq<seq<seq<Point>>>, b: seq<seq<seq<Point>>>)
    ensures Flatten(a + b) == Flatten(a) + Flatten(b)
    decreases |b|
  {
    if |b| > 0 {
      var b' := b[..|b| - 1];
      FlattenConcat(a, b');
      assert (a + b)[..|a + b| - 1] == a + b';
      assert Flatten(b) == Flatten(b') + b[|b| - 1];
    } else {
      assert a + b == a;
    }
  }

  lemma {:induction false} LargeRingsConcat(a: seq<seq<Point>>, b: seq<seq<Point>>)
    ensures LargeRings(a + b) == LargeRings(a) + LargeRings(b)
    decreases |b|
  {
    if |b| > 0 {
      var b' := b[..|b| - 1];
      LargeRingsConcat(a, b');
      assert (a + b)[..|a + b| - 1] == a + b';
      assert (a + b)[|a + b| - 1] == b[|b| - 1];
    } else {
      assert a + b == a;
    }
  }

  /** A ring is written for one clipped polygon exactly when it is one of
      its rings and has more than three points. */
  lemma {:induction false} LargeRingsMembers(p: seq<seq<Point>>, x: seq<Point>)
    ensures x in LargeRings(p) <==> x in p && |x| > 3
    decreases |p|
  {
    if |p| > 0 {
      var init := p[..|p| - 1];
      LargeRingsMembers(init, x);
      assert p == init + [p[|p| - 1]];
    }
  }

  lemma {:induction false} ClippedRingsAreLarge(result: seq<seq<seq<Point>>>)
    ensures ClippedRings(result) == LargeRings(Flatten(result))
    decreases |result|
  {
    if |result| > 0 {
      var init := result[..|result| - 1];
      ClippedRingsAreLarge(init);
      LargeRingsConcat(Flatten(init), result[|result| - 1]);
    }
  }

  /** The polygon writer writes every ring of every clipping result that has
      more than three points, in order, and nothing else. */
  lemma {:induction false} EncodePolygonsIsRef(boost: Boost, bbox: Box, polygons: seq<seq<seq<Point>>>)
    ensures EncodePolygons(boost, bbox, polygons) == LargeRings(Flatten(ClipAll(boost, bbox, polygons)))
    ensures forall x :: x in EncodePolygons(boost, bbox, polygons) <==>
      x in Flatten(ClipAll(boost, bbox, polygons)) && |x| > 3
    decreases |polygons|
  {
    if |polygons| > 0 {
      var init, c := polygons[..|polygons| - 1], boost.clipPolygon(polygons[|polygons| - 1], bbox);
      EncodePolygonsIsRef(boost, bbox, init);
      ClippedRingsAreLarge(c);
      FlattenConcat(ClipAll(boost, bbox, init), c);
      LargeRingsConcat(Flatten(ClipAll(boost, bbox, init)), Flatten(c));
    }
    forall x ensures x in EncodePolygons(boost, bbox, polygons) <==>
      x in Flatten(ClipAll(boost, bbox, polygons)) && |x| > 3
    {
      LargeRingsMembers(Flatten(ClipAll(boost, bbox, polygons)), x);
    }
  }

  lemma PartsCoveredConcat(a: seq<seq<Point>>, b: seq<seq<Point>>, bbox: Box)
    requires AllPartsCovered(a, bbox) && AllPartsCovered(b, bbox)
    ensures AllPartsCovered(a + b, bbox)
  {
    forall k | 0 <= k < |a + b| ensures AllCovered((a + b)[k], bbox) {
      if k < |a| { assert (a + b)[k] == a[k]; } else { assert (a + b)[k] == b[k - |a|]; }
    }
  }

  /** The writer adds only rings of the clipping output, so it writes inside
      the box when clipping does. */
  lemma {:induction false} LargeRingsCovered(p: seq<seq<Point>>, bbox: Box)
    requires AllPartsCovered(p, bbox)
    ensures AllPartsCovered(LargeRings(p), bbox)
    decreases |p|
  {
    if |p| > 0 {
      var init := p[..|p| - 1];
      assert AllPartsCovered(init, bbox) by {
        forall k | 0 <= k < |init| ensures AllCovered(init[k], bbox) { assert init[k] == p[k]; }
      }
      LargeRingsCovered(init, bbox);
      if |p[|p| - 1]| > 3 {
        PartsCoveredConcat(LargeRings(init), [p[|p| - 1]], bbox);
      }
    }
  }

  lemma {:induction false} ClippedRingsCovered(result: seq<seq<seq<Point>>>, bbox: Box)
    requires forall m :: 0 <= m < |result| ==> AllPartsCovered(result[m], bbox)
    ensures AllPartsCovered(ClippedRings(result), bbox)
    decreases |result|
  {
    if |result| > 0 {
      var init := result[..|result| - 1];
      assert forall m :: 0 <= m < |init| ==> init[m] == result[m];
      ClippedRingsCovered(init, bbox);
      LargeRingsCovered(result[|result| - 1], bbox);
      PartsCoveredConcat(ClippedRings(init), LargeRings(result[|result| - 1]), bbox);
    }
  }

  /** When clipping keeps its promise, every written ring lies in the box. */
  lemma {:induction false} EncodePolygonsCovered(boost: Boost, bbox: Box, polygons: seq<seq<seq<Point>>>)
    requires ClipsInto(boost, bbox)
    ensures AllPartsCovered(EncodePolygons(boost, bbox, polygons), bbox)
    decreases |polygons|
  {
    if |polygons| > 0 {
      var init := polygons[..|polygons| - 1];
      EncodePolygonsCovered(boost, bbox, init);
      var clipped := boost.clipPolygon(polygons[|polygons| - 1], bbox);
      ClippedRingsCovered(clipped, bbox);
      PartsCoveredConcat(EncodePolygons(boost, bbox, init), ClippedRings(clipped), bbox);
    }
  }

  // -------------------------------------------------------------- builder

  /** `overzoomed_feature_builder`: the buffered target box, the overzoom
      parameters and the clipping algorithms. */
  datatype Builder = Builder(bbox: Box, oz: Overzoom, boost: Boost) {

    /** `apply_geometry_point`: the surviving points, if any. */
    function ApplyGeometryPoint(id: Option<nat>, pts: seq<Point>): Option<BuiltFeature> {
      var multiPoint := DecodePointGeometry(oz, bbox, pts);
      if |multiPoint| > 0 then Some(BuiltFeature(id, EncodedPoints(multiPoint))) else None
    }

    /** The clipped multi-linestring of a source linestring geometry. */
    function ClipLines(parts: seq<seq<Point>>): seq<seq<Point>> {
      boost.clipLines(DecodeLineGeometry(oz, parts), bbox)
    }

    /** `apply_geometry_linestring`, with the corrected writer. */
    function ApplyGeometryLinestring(id: Option<nat>, parts: seq<seq<Point>>): Option<BuiltFeature> {
      var result := ClipLines(parts);
      if |result| == 0 then None
      else
        var enc := EncodeLines(result);
        if enc.valid then Some(BuiltFeature(id, EncodedLineStrings(enc.lines))) else None
    }

    /** `apply_geometry_linestring` as written, with the announced count of
        every clipped part. */
    function ApplyGeometryLinestringAsWritten(id: Option<nat>, parts: seq<seq<Point>>): Option<BuiltFeature> {
      var result := ClipLines(parts);
      if |result| == 0 then None
      else
        var enc := EncodeLinesAsWritten(result);
        if enc.valid then Some(BuiltFeature(id, EncodedLineStrings(enc.lines))) else None
    }

    /** The grouped polygons of a source polygon geometry. */
    function GroupedPolygons(rings: seq<SourceRing>): seq<seq<seq<Point>>> {
      GroupRings(boost, bbox, DecodePolygonGeometry(oz, rings)).polygons
    }

    /** `apply_geometry_polygon`. */
    function ApplyGeometryPolygon(id: Option<nat>, rings: seq<SourceRing>): Option<BuiltFeature> {
      var polygons := GroupedPolygons(rings);
      if |polygons| == 0 then None
      else
        var out := EncodePolygons(boost, bbox, polygons);
        if |out| > 0 then Some(BuiltFeature(id, EncodedPolygon(out))) else None
    }

    /** `apply`: dispatch on the geometry type; any other type writes
        nothing. */
    function Apply(f: Feature): (r: Option<BuiltFeature>)
      ensures r.Some? ==> r.value.id == f.id
      ensures f.geometry.UnknownGeometry? ==> r.None?
      ensures r.Some? ==> (f.geometry.PointGeometry? <==> r.value.geometry.EncodedPoints?)
      ensures r.Some? ==> (f.geometry.LineStringGeometry? <==> r.value.geometry.EncodedLineStrings?)
      ensures r.Some? ==> (f.geometry.PolygonGeometry? <==> r.value.geometry.EncodedPolygon?)
    {
      match f.geometry
      case PointGeometry(pts) => ApplyGeometryPoint(f.id, pts)
      case LineStringGeometry(parts) => ApplyGeometryLinestring(f.id, parts)
      case PolygonGeometry(rings) => ApplyGeometryPolygon(f.id, rings)
      case UnknownGeometry => None
    }

    /** `apply` as written: the same dispatch over the as-written
        linestring writer. */
    function ApplyAsWritten(f: Feature): (r: Option<BuiltFeature>)
      ensures r.Some? ==> r.value.id == f.id
      ensures f.geometry.UnknownGeometry? ==> r.None?
      ensures r.Some? ==> (f.geometry.LineStringGeometry? <==> r.value.geometry.EncodedLineStrings?)
    {
      match f.geometry
      case PointGeometry(pts) => ApplyGeometryPoint(f.id, pts)
      case LineStringGeometry(parts) => ApplyGeometryLinestringAsWritten(f.id, parts)
      case PolygonGeometry(rings) => ApplyGeometryPolygon(f.id, rings)
      case UnknownGeometry => None
    }
  }

  /** The builder as written commits exactly the features the corrected one
      does, writes the same points and polygons, and differs on a linestring
      only when clipping left a part with a repeated point. */
  lemma ApplyAsWrittenAgrees(b: Builder, f: Feature)
    ensures b.ApplyAsWritten(f).Some? <==> b.Apply(f).Some?
    ensures !f.geometry.LineStringGeometry? ==> b.ApplyAsWritten(f) == b.Apply(f)
    ensures (f.geometry.LineStringGeometry? &&
             forall k :: 0 <= k < |b.ClipLines(f.geometry.parts)| ==> NoRepeats(b.ClipLines(f.geometry.parts)[k]))
      ==> b.ApplyAsWritten(f) == b.Apply(f)
  {
    if f.geometry.LineStringGeometry? {
      EncodeLinesAsWrittenAgrees(b.ClipLines(f.geometry.parts));
    }
  }

  /** A point feature is written exactly when some transformed point lies in
      the closed box, and then with exactly the surviving points. */
  lemma ApplyPointWrittenIff(b: Builder, id: Option<nat>, pts: seq<Point>)
    ensures b.ApplyGeometryPoint(id, pts).Some? <==>
      exists i :: 0 <= i < |pts| && CoveredBy(b.oz.Apply(pts[i]), b.bbox)
    ensures b.ApplyGeometryPoint(id, pts).Some? ==>
      b.ApplyGeometryPoint(id, pts).value.geometry == EncodedPoints(DecodePointGeometry(b.oz, b.bbox, pts))
  {
    PointsEmptyIffNoneCovered(b.oz, b.bbox, pts);
  }

  /** A linestring feature is written exactly when some clipped part has a
      point different from its first; every written linestring then has the
      announced number of points, at least two, and no zero-length
      segment. */
  lemma ApplyLinestringWrittenIff(b: Builder, id: Option<nat>, parts: seq<seq<Point>>)
    ensures b.ApplyGeometryLinestring(id, parts).Some? <==> SomePartHasLength(b.ClipLines(parts))
    ensures b.ApplyGeometryLinestring(id, parts).Some? ==>
      var lines := b.ApplyGeometryLinestring(id, parts).value.geometry.lines;
      forall k :: 0 <= k < |lines| ==>
        lines[k].declared == |lines[k].points| > 1 && NoRepeats(lines[k].points)
  {
    EncodeLinesWellFormed(b.ClipLines(parts), b.bbox);
  }

  /** A polygon feature is written exactly when some outer ring's envelope
      touches the box and clipping one of the polygons it opens leaves a ring
      of more than three points; only such rings are written. */
  lemma ApplyPolygonWrittenIff(b: Builder, id: Option<nat>, rings: seq<SourceRing>)
    ensures OpeningOuters(b.boost, b.bbox, DecodePolygonGeometry(b.oz, rings)) == 0 ==>
      b.ApplyGeometryPolygon(id, rings).None?
    ensures b.ApplyGeometryPolygon(id, rings).Some? <==>
      exists i :: 0 <= i < |b.GroupedPolygons(rings)| &&
        |ClippedRings(b.boost.clipPolygon(b.GroupedPolygons(rings)[i], b.bbox))| > 0
    ensures b.ApplyGeometryPolygon(id, rings).Some? ==>
      var out := b.ApplyGeometryPolygon(id, rings).value.geometry.rings;
      forall k :: 0 <= k < |out| ==> |out[k]| > 3
  {
    GroupRingsCount(b.boost, b.bbox, DecodePolygonGeometry(b.oz, rings));
    EncodePolygonsEmptyIff(b.boost, b.bbox, b.GroupedPolygons(rings));
  }

  /** The clipping invariant: when clipping keeps its promise, every vertex
      of every written feature lies in the buffered box. */
  lemma ApplyWithinBox(b: Builder, f: Feature)
    requires ClipsInto(b.boost, b.bbox)
    ensures b.Apply(f).Some? ==> EncodedCovered(b.Apply(f).value.geometry, b.bbox)
  {
    match f.geometry
    case PointGeometry(pts) =>
      PointsKeptIffCovered(b.oz, b.bbox, pts);
    case LineStringGeometry(parts) =>
      var result := b.ClipLines(parts);
      assert AllPartsCovered(result, b.bbox);
      EncodeLinesWellFormed(result, b.bbox);
    case PolygonGeometry(rings) =>
      EncodePolygonsCovered(b.boost, b.bbox, b.GroupedPolygons(rings));
    case UnknownGeometry =>
  }

  // ------------------------------------------------------------ placement

  /** What the builder's parameters mean when the composite computes them:
      with dx, dy the displacement of target (z, x, y) inside source tile s
      and the zoom factor 2^(z - s.z), the transformed point is the source
      point's pixel position at the target zoom, measured from the target
      tile's origin. */
  lemma OverzoomPlacesPoint(s: TileId, z: nat, x: nat, y: nat, extent: int, oz: Overzoom, p: Point)
    requires WithinTarget(s, z, x, y)
    requires extent > 0 && extent % 2 == 0 && extent * Pow2(z - s.z) < 0x8000_0000
    requires oz.dx == TileOffset(extent, z - s.z, x) && oz.dy == TileOffset(extent, z - s.z, y)
    requires oz.zoomFactor == Pow2(z - s.z)
    ensures oz.Apply(p) ==
      Point((extent * s.x + p.x) * Pow2(z - s.z) - extent * x,
            (extent * s.y + p.y) * Pow2(z - s.z) - extent * y)
  {
    var n := z - s.z;
    var f := Pow2(n);
    MulAtLeast(extent, f);
    OffsetBounds(extent, n, x);
    OffsetBounds(extent, n, y);
    OffsetIsOriginDifference(s, z, x, y, extent);
    assert AsInt32(oz.zoomFactor) == f;
    assert AsInt32(oz.dx) == extent * x - extent * s.x * f;
    assert AsInt32(oz.dy) == extent * y - extent * s.y * f;
    assert (extent * s.x + p.x) * f == extent * s.x * f + p.x * f;
    assert (extent * s.y + p.y) * f == extent * s.y * f + p.y * f;
  }

  /** The point tests: a z0 point at (640, 832) lands at (1280, 1664) in
      tile (1, 0, 0) and at (1024, 2560) in tile (3, 1, 1). */
  lemma OverzoomTestPoints()
    ensures Overzoom(0, 0, 2).Apply(Point(640, 832)) == Point(1280, 1664)
    ensures Overzoom(4096, 4096, 8).Apply(Point(640, 832)) == Point(1024, 2560)
  {
    OverzoomPlacesPoint(TileId(0, 0, 0), 1, 0, 0, 4096, Overzoom(0, 0, 2), Point(640, 832));
    OverzoomPlacesPoint(TileId(0, 0, 0), 3, 1, 1, 4096, Overzoom(4096, 4096, 8), Point(640, 832));
  }
}

=== FILE: feature_handlers.dfy ===
/**
 The geometry handlers the overzoom feature builder hands to vtzero's
 geometry decoders. Each handler is a small state machine: the decoder calls
 a begin callback per part, a point callback per vertex and an end callback,
 and the handler rescales every vertex by the zoom factor, shifts it by the
 displacement, and either filters it (points) or drops repeated consecutive
 vertices (linestrings and rings).

 The handlers are modelled as values whose callbacks return the updated
 handler; the `Decode…` drivers replay the decoder's calling protocol over a
 source geometry given as sequences of integer points.
 */
module FeatureHandlers {
  import opened Numeric
  import opened Geometry
  import ZoomCoordinates

  /** The displacement and zoom factor each handler stores as std::uint32_t
      and casts to std::int32_t at every use. */
  datatype Overzoom = Overzoom(dx: uint32, dy: uint32, zoomFactor: uint32) {

    /** `pt * zoom_factor - d` on each axis: dx for x, dy for y. */
    function Apply(p: Point): Point {
      var scaled := ZoomCoordinates.ZoomCoordinates(AsInt32(zoomFactor)).Apply(p);
      Point(scaled.x - AsInt32(dx), scaled.y - AsInt32(dy))
    }
  }

  /** Every vertex of s, rescaled and shifted. */
  function ApplyAll(oz: Overzoom, s: seq<Point>): (r: seq<Point>)
    ensures |r| == |s|
    ensures forall i :: 0 <= i < |s| ==> r[i] == oz.Apply(s[i])
  {
    seq(|s|, i requires 0 <= i < |s| => oz.Apply(s[i]))
  }

  function AppendToLast<T>(parts: seq<seq<T>>, p: T): (r: seq<seq<T>>)
    requires |parts| > 0
    ensures |r| == |parts| && r[..|r| - 1] == parts[..|parts| - 1]
    ensures r[|r| - 1] == parts[|parts| - 1] + [p]
  {
    parts[..|parts| - 1] + [parts[|parts| - 1] + [p]]
  }

  // ---------------------------------------------------------------- points

  /** `point_handler`: keeps each transformed point that the closed bbox
      covers; begin and end do nothing. */
  datatype PointHandler = PointHandler(geom: seq<Point>, oz: Overzoom, bbox: Box) {

    function PointsBegin(count: nat): PointHandler {
      this
    }

    function PointsPoint(pt: Point): PointHandler {
      var q := oz.Apply(pt);
      if CoveredBy(q, bbox) then this.(geom := geom + [q]) else this
    }

    function PointsEnd(): PointHandler {
      this
    }
  }

  function FeedPoints(h: PointHandler, pts: seq<Point>): PointHandler
    decreases |pts|
  {
    if |pts| == 0 then h
    else FeedPoints(h, pts[..|pts| - 1]).PointsPoint(pts[|pts| - 1])
  }

  /** `decode_point_geometry` into a fresh multi-point: the surviving points. */
  function DecodePointGeometry(oz: Overzoom, bbox: Box, pts: seq<Point>): seq<Point> {
    var h := PointHandler([], oz, bbox);
    FeedPoints(h.PointsBegin(|pts|), pts).PointsEnd().geom
  }

  lemma {:induction false} FeedPointsFrame(h: PointHandler, pts: seq<Point>)
    ensures FeedPoints(h, pts).oz == h.oz && FeedPoints(h, pts).bbox == h.bbox
    ensures FeedPoints(h, pts).geom == h.geom + FeedPoints(h.(geom := []), pts).geom
    decreases |pts|
  {
    if |pts| > 0 {
      var init := pts[..|pts| - 1];
      FeedPointsFrame(h, init);
      FeedPointsFrame(h.(geom := []), init);
    }
  }

  lemma {:induction false} FeedPointsAppend(h: PointHandler, a: seq<Point>, b: seq<Point>)
    ensures FeedPoints(h, a + b) == FeedPoints(FeedPoints(h, a), b)
    decreases |b|
  {
    if |b| == 0 {
      assert a + b == a;
    } else {
      assert (a + b)[..|a + b| - 1] == a + b[..|b| - 1];
      FeedPointsAppend(h, a, b[..|b| - 1]);
    }
  }

  /** The point handler keeps transformed points in source order: decoding a
      concatenation is concatenating the decodings. */
  lemma PointsKeepOrder(oz: Overzoom, bbox: Box, a: seq<Point>, b: seq<Point>)
    ensures DecodePointGeometry(oz, bbox, a + b) ==
      DecodePointGeometry(oz, bbox, a) + DecodePointGeometry(oz, bbox, b)
  {
    var h := PointHandler([], oz, bbox);
    FeedPointsAppend(h, a, b);
    FeedPointsFrame(FeedPoints(h, a), b);
    FeedPointsFrame(h, a);
  }

  /** A transformed point is kept exactly when the closed bbox covers it:
      every kept point is covered and is the image of a source point, and
      the image of every source point the box covers is kept. */
  lemma PointsKeptIffCovered(oz: Overzoom, bbox: Box, pts: seq<Point>)
    ensures AllCovered(DecodePointGeometry(oz, bbox, pts), bbox)
    ensures |DecodePointGeometry(oz, bbox, pts)| <= |pts|
    ensures forall i :: 0 <= i < |pts| && CoveredBy(oz.Apply(pts[i]), bbox) ==>
      oz.Apply(pts[i]) in DecodePointGeometry(oz, bbox, pts)
    ensures forall q :: q in DecodePointGeometry(oz, bbox, pts) ==>
      exists i :: 0 <= i < |pts| && q == oz.Apply(pts[i])
  {
    var h := PointHandler([], oz, bbox);
    FeedPointsSound(h, pts);
    FeedPointsComplete(h, pts);
  }

  lemma {:induction false} FeedPointsSound(h: PointHandler, pts: seq<Point>)
    requires h.geom == []
    ensures FeedPoints(h, pts).oz == h.oz && FeedPoints(h, pts).bbox == h.bbox
    ensures AllCovered(FeedPoints(h, pts).geom, h.bbox)
    ensures |FeedPoints(h, pts).geom| <= |pts|
    ensures forall q :: q in FeedPoints(h, pts).geom ==>
      exists i :: 0 <= i < |pts| && q == h.oz.Apply(pts[i])
    decreases |pts|
  {
    if |pts| > 0 {
      var init := pts[..|pts| - 1];
      FeedPointsSound(h, init);
      var r0 := FeedPoints(h, init);
      var r := FeedPoints(h, pts);
      assert r == r0.PointsPoint(pts[|pts| - 1]);
      forall q | q in r.geom
        ensures exists i :: 0 <= i < |pts| && q == h.oz.Apply(pts[i])
      {
        if q in r0.geom {
          var i :| 0 <= i < |init| && q == h.oz.Apply(init[i]);
          assert pts[i] == init[i];
        } else {
          assert q == h.oz.Apply(pts[|pts| - 1]);
        }
      }
    }
  }

  lemma {:induction false} FeedPointsComplete(h: PointHandler, pts: seq<Point>)
    ensures forall i :: 0 <= i < |pts| && CoveredBy(h.oz.Apply(pts[i]), h.bbox) ==>
      h.oz.Apply(pts[i]) in FeedPoints(h, pts).geom
    ensures FeedPoints(h, pts).oz == h.oz && FeedPoints(h, pts).bbox == h.bbox
    ensures forall q :: q in h.geom ==> q in FeedPoints(h, pts).geom
    decreases |pts|
  {
    if |pts| > 0 {
      var init := pts[..|pts| - 1];
      FeedPointsComplete(h, init);
      var r0 := FeedPoints(h, init);
      var r := FeedPoints(h, pts);
      assert r == r0.PointsPoint(pts[|pts| - 1]);
      assert forall q :: q in r0.geom ==> q in r.geom;
      forall i | 0 <= i < |pts| && CoveredBy(h.oz.Apply(pts[i]), h.bbox)
        ensures h.oz.Apply(pts[i]) in r.geom
      {
        if i < |init| {
          assert pts[i] == init[i];
        }
      }
    }
  }

  /** The reference for the point handler: the points of qs the closed box
      covers, in order. */
  function KeepCovered(bbox: Box, qs: seq<Point>): seq<Point>
    decreases |qs|
  {
    if |qs| == 0 then []
    else KeepCovered(bbox, qs[..|qs| - 1]) + (if CoveredBy(qs[|qs| - 1], bbox) then [qs[|qs| - 1]] else [])
  }

  lemma {:induction false} FeedPointsFilters(h: PointHandler, pts: seq<Point>)
    requires h.geom == []
    ensures FeedPoints(h, pts).geom == KeepCovered(h.bbox, ApplyAll(h.oz, pts))
    decreases |pts|
  {
    if |pts| > 0 {
      var init := pts[..|pts| - 1];
      FeedPointsFilters(h, init);
      FeedPointsFrame(h, init);
      var qs := ApplyAll(h.oz, pts);
      assert qs[..|qs| - 1] == ApplyAll(h.oz, init);
    }
  }

  /** The point handler, driven over a geometry, is the reference filter of
      the transformed points. */
  lemma PointsDecodeIsFilter(oz: Overzoom, bbox: Box, pts: seq<Point>)
    ensures DecodePointGeometry(oz, bbox, pts) == KeepCovered(bbox, ApplyAll(oz, pts))
  {
    FeedPointsFilters(PointHandler([], oz, bbox), pts);
  }

  /** Nothing survives exactly when no transformed point is covered. */
  lemma PointsEmptyIffNoneCovered(oz: Overzoom, bbox: Box, pts: seq<Point>)
    ensures |DecodePointGeometry(oz, bbox, pts)| == 0 <==>
      forall i :: 0 <= i < |pts| ==> !CoveredBy(oz.Apply(pts[i]), bbox)
  {
    PointsKeptIffCovered(oz, bbox, pts);
    var r := DecodePointGeometry(oz, bbox, pts);
    if |r| > 0 {
      assert r[0] in r;
      var i :| 0 <= i < |pts| && r[0] == oz.Apply(pts[i]);
      assert CoveredBy(oz.Apply(pts[i]), bbox);
    }
  }

  // ---------------------------------------------------- shared de-duplication

  /** The state the linestring and ring handlers keep to skip repeated
      vertices: the last accepted source vertex, and whether the current part
      has accepted none yet. */
  datatype Cursor = Cursor(curX: int, curY: int, first: bool) {

    predicate Admits(pt: Point) {
      first || pt.x != curX || pt.y != curY
    }

    function Advance(pt: Point): Cursor {
      Cursor(pt.x, pt.y, false)
    }
  }

  /** The cursor a handler is constructed with. */
  const InitialCursor := Cursor(0, 0, true)

  // ------------------------------------------------------------ linestrings

  /** `line_string_handler`. */
  datatype LineStringHandler = LineStringHandler(geom: seq<seq<Point>>, oz: Overzoom, cursor: Cursor) {

    /** `linestring_begin`: opens exactly one new, empty part and re-arms the
        first-vertex flag; earlier parts are untouched. */
    function LinestringBegin(count: nat): (h: LineStringHandler)
      ensures |h.geom| == |geom| + 1 && h.geom[..|geom|] == geom && h.geom[|geom|] == []
      ensures h.cursor.first && h.oz == oz
    {
      this.(geom := geom + [[]], cursor := cursor.(first := true))
    }

    function LinestringPoint(pt: Point): LineStringHandler
      requires |geom| > 0
    {
      if cursor.Admits(pt) then
        this.(geom := AppendToLast(geom, oz.Apply(pt)), cursor := cursor.Advance(pt))
      else this
    }

    function LinestringEnd(): LineStringHandler {
      this
    }
  }

  function FeedLine(h: LineStringHandler, pts: seq<Point>): (r: LineStringHandler)
    requires |h.geom| > 0
    ensures |r.geom| == |h.geom|
    decreases |pts|
  {
    if |pts| == 0 then h
    else FeedLine(h, pts[..|pts| - 1]).LinestringPoint(pts[|pts| - 1])
  }

  /** vtzero's linestring decoder protocol: per part, begin with the vertex
      count, one point callback per vertex, end. */
  function FeedLines(h: LineStringHandler, parts: seq<seq<Point>>): (r: LineStringHandler)
    ensures |r.geom| == |h.geom| + |parts|
    decreases |parts|
  {
    if |parts| == 0 then h
    else
      var part := parts[|parts| - 1];
      FeedLine(FeedLines(h, parts[..|parts| - 1]).LinestringBegin(|part|), part).LinestringEnd()
  }

  /** `decode_linestring_geometry` into a fresh multi-linestring. */
  function DecodeLineGeometry(oz: Overzoom, parts: seq<seq<Point>>): seq<seq<Point>> {
    FeedLines(LineStringHandler([], oz, InitialCursor), parts).geom
  }

  /** The reference decoding: each source part, de-duplicated, then
      transformed. */
  function DedupParts(oz: Overzoom, parts: seq<seq<Point>>): (r: seq<seq<Point>>)
    ensures |r| == |parts|
    ensures forall i :: 0 <= i < |parts| ==> r[i] == ApplyAll(oz, Dedup(parts[i]))
  {
    seq(|parts|, i requires 0 <= i < |parts| => ApplyAll(oz, Dedup(parts[i])))
  }

  /** Feeding one part into a freshly begun part yields its de-duplicated,
      transformed vertices, with the cursor on the part's last vertex. */
  lemma {:induction false} FeedLineDedups(h: LineStringHandler, pts: seq<Point>)
    requires |h.geom| > 0 && h.geom[|h.geom| - 1] == [] && h.cursor.first
    ensures FeedLine(h, pts).oz == h.oz
    ensures FeedLine(h, pts).geom == h.geom[..|h.geom| - 1] + [ApplyAll(h.oz, Dedup(pts))]
    ensures |pts| > 0 ==> FeedLine(h, pts).cursor == Cursor(pts[|pts| - 1].x, pts[|pts| - 1].y, false)
    decreases |pts|
  {
    if |pts| == 0 {
      assert h.geom == h.geom[..|h.geom| - 1] + [[]];
    } else {
      var init, p := pts[..|pts| - 1], pts[|pts| - 1];
      FeedLineDedups(h, init);
      var r0 := FeedLine(h, init);
      if |init| == 0 {
        assert r0 == h;
        assert Dedup(pts) == [p];
        assert ApplyAll(h.oz, [p]) == [h.oz.Apply(p)];
        assert h.geom[|h.geom| - 1] + [h.oz.Apply(p)] == [h.oz.Apply(p)];
      } else if p == init[|init| - 1] {
        assert !r0.cursor.Admits(p);
      } else {
        assert r0.cursor.Admits(p);
        assert Dedup(pts) == Dedup(init) + [p];
        assert ApplyAll(h.oz, Dedup(pts)) == ApplyAll(h.oz, Dedup(init)) + [h.oz.Apply(p)];
      }
    }
  }

  lemma {:induction false} FeedLinesDecodes(h: LineStringHandler, parts: seq<seq<Point>>)
    ensures FeedLines(h, parts).oz == h.oz
    ensures FeedLines(h, parts).geom == h.geom + DedupParts(h.oz, parts)
    decreases |parts|
  {
    if |parts| > 0 {
      var init, part := parts[..|parts| - 1], parts[|parts| - 1];
      FeedLinesDecodes(h, init);
      var b := FeedLines(h, init).LinestringBegin(|part|);
      assert FeedLines(h, parts) == FeedLine(b, part).LinestringEnd();
      FeedLineDedups(b, part);
      assert b.geom[..|b.geom| - 1] == FeedLines(h, init).geom;
      DedupPartsSnoc(h.oz, parts);
    }
  }

  lemma DedupPartsSnoc(oz: Overzoom, parts: seq<seq<Point>>)
    requires |parts| > 0
    ensures DedupParts(oz, parts) ==
      DedupParts(oz, parts[..|parts| - 1]) + [ApplyAll(oz, Dedup(parts[|parts| - 1]))]
  {
  }

  /** The linestring handler decodes exactly one part per source part, each
      being its source part with repeated consecutive vertices dropped and
      the rest transformed; the first vertex of every non-empty part is kept. */
  lemma LineHandlerDecodes(oz: Overzoom, parts: seq<seq<Point>>)
    ensures DecodeLineGeometry(oz, parts) == DedupParts(oz, parts)
    ensures |DecodeLineGeometry(oz, parts)| == |parts|
    ensures forall i :: 0 <= i < |parts| && |parts[i]| > 0 ==>
      |DecodeLineGeometry(oz, parts)[i]| > 0 && DecodeLineGeometry(oz, parts)[i][0] == oz.Apply(parts[i][0])
  {
    FeedLinesDecodes(LineStringHandler([], oz, InitialCursor), parts);
  }

  /** With a non-zero zoom factor no decoded part repeats a vertex. */
  lemma DedupPartsNoRepeats(oz: Overzoom, parts: seq<seq<Point>>)
    requires AsInt32(oz.zoomFactor) != 0
    ensures forall i :: 0 <= i < |parts| ==> NoRepeats(DedupParts(oz, parts)[i])
  {
    forall i | 0 <= i < |parts|
      ensures NoRepeats(DedupParts(oz, parts)[i])
    {
      var d := DedupParts(oz, parts)[i];
      assert d == ApplyAll(oz, Dedup(parts[i]));
      ApplyAllNoRepeats(oz, parts[i]);
    }
  }

  lemma ApplyAllNoRepeats(oz: Overzoom, s: seq<Point>)
    requires AsInt32(oz.zoomFactor) != 0
    ensures NoRepeats(ApplyAll(oz, Dedup(s)))
  {
    var z := ZoomCoordinates.ZoomCoordinates(AsInt32(oz.zoomFactor));
    forall p, q | oz.Apply(p) == oz.Apply(q)
      ensures p == q
    {
      ZoomCoordinates.ApplyInjective(z, p, q);
    }
    DedupNoRepeats(s);
  }

  // ------------------------------------------------------------------ rings

  /** vtzero's ring classification, which its decoder derives from the
      ring's signed area before calling `ring_end`. */
  datatype RingType = Outer | Inner | Invalid

  /** A decoded ring with its classification. */
  datatype AnnotatedRing = AnnotatedRing(points: seq<Point>, ringType: RingType)

  /** A ring as the decoder reads it from the tile: its vertices (the closing
      vertex included) and the classification it will report. It has the
      shape of `AnnotatedRing` but is a separate type on purpose: a
      `SourceRing` holds untransformed tile coordinates, an `AnnotatedRing`
      the handler's transformed, de-duplicated output. */
  datatype SourceRing = SourceRing(points: seq<Point>, ringType: RingType)

  /** `polygon_handler`. */
  datatype PolygonHandler = PolygonHandler(geom: seq<AnnotatedRing>, oz: Overzoom, cursor: Cursor) {

    /** `ring_begin`: opens exactly one new, empty ring whose type is the
        value-initialised one (outer) until `ring_end` sets it. */
    function RingBegin(count: nat): (h: PolygonHandler)
      ensures |h.geom| == |geom| + 1 && h.geom[..|geom|] == geom
      ensures h.geom[|geom|].points == [] && h.cursor.first && h.oz == oz
    {
      this.(geom := geom + [AnnotatedRing([], Outer)], cursor := cursor.(first := true))
    }

    function RingPoint(pt: Point): PolygonHandler
      requires |geom| > 0
    {
      if cursor.Admits(pt) then
        var last := geom[|geom| - 1];
        this.(geom := geom[..|geom| - 1] + [last.(points := last.points + [oz.Apply(pt)])],
              cursor := cursor.Advance(pt))
      else this
    }

    /** `ring_end(type)`: tags the last ring, and only it, with the type. */
    function RingEnd(t: RingType): (h: PolygonHandler)
      requires |geom| > 0
      ensures |h.geom| == |geom| && h.geom[..|geom| - 1] == geom[..|geom| - 1]
      ensures h.geom[|geom| - 1] == AnnotatedRing(geom[|geom| - 1].points, t)
      ensures h.cursor == cursor && h.oz == oz
    {
      this.(geom := geom[..|geom| - 1] + [geom[|geom| - 1].(ringType := t)])
    }
  }

  function FeedRing(h: PolygonHandler, pts: seq<Point>): (r: PolygonHandler)
    requires |h.geom| > 0
    ensures |r.geom| == |h.geom|
    decreases |pts|
  {
    if |pts| == 0 then h
    else FeedRing(h, pts[..|pts| - 1]).RingPoint(pts[|pts| - 1])
  }

  /** vtzero's polygon decoder protocol: per ring, begin with the vertex
      count, one point callback per vertex, end with the ring's type. */
  function FeedRings(h: PolygonHandler, rings: seq<SourceRing>): (r: PolygonHandler)
    ensures |r.geom| == |h.geom| + |rings|
    decreases |rings|
  {
    if |rings| == 0 then h
    else
      var ring := rings[|rings| - 1];
      FeedRing(FeedRings(h, rings[..|rings| - 1]).RingBegin(|ring.points|), ring.points).RingEnd(ring.ringType)
  }

  /** `decode_polygon_geometry` into a fresh vector of annotated rings. */
  function DecodePolygonGeometry(oz: Overzoom, rings: seq<SourceRing>): seq<AnnotatedRing> {
    FeedRings(PolygonHandler([], oz, InitialCursor), rings).geom
  }

  /** The reference decoding of rings: vertices de-duplicated and
      transformed, type as reported. */
  function DedupRings(oz: Overzoom, rings: seq<SourceRing>): (r: seq<AnnotatedRing>)
    ensures |r| == |rings|
    ensures forall i :: 0 <= i < |rings| ==>
      r[i] == AnnotatedRing(ApplyAll(oz, Dedup(rings[i].points)), rings[i].ringType)
  {
    seq(|rings|, i requires 0 <= i < |rings| =>
      AnnotatedRing(ApplyAll(oz, Dedup(rings[i].points)), rings[i].ringType))
  }

  lemma {:induction false} FeedRingDedups(h: PolygonHandler, pts: seq<Point>)
    requires |h.geom| > 0 && h.geom[|h.geom| - 1].points == [] && h.cursor.first
    ensures FeedRing(h, pts).oz == h.oz
    ensures FeedRing(h, pts).geom ==
      h.geom[..|h.geom| - 1] + [h.geom[|h.geom| - 1].(points := ApplyAll(h.oz, Dedup(pts)))]
    ensures |pts| > 0 ==> FeedRing(h, pts).cursor == Cursor(pts[|pts| - 1].x, pts[|pts| - 1].y, false)
    decreases |pts|
  {
    if |pts| == 0 {
      assert h.geom == h.geom[..|h.geom| - 1] + [h.geom[|h.geom| - 1]];
    } else {
      var init, p := pts[..|pts| - 1], pts[|pts| - 1];
      FeedRingDedups(h, init);
      var r0 := FeedRing(h, init);
      var n, last := |h.geom|, h.geom[|h.geom| - 1];
      assert FeedRing(h, pts) == r0.RingPoint(p);
      if |init| == 0 {
        assert r0 == h;
        assert Dedup(pts) == [p];
        assert ApplyAll(h.oz, [p]) == [h.oz.Apply(p)];
        assert last.points + [h.oz.Apply(p)] == [h.oz.Apply(p)];
      } else if p == init[|init| - 1] {
        assert !r0.cursor.Admits(p);
        assert Dedup(pts) == Dedup(init);
      } else {
        assert r0.cursor.Admits(p);
        assert Dedup(pts) == Dedup(init) + [p];
        var a := ApplyAll(h.oz, Dedup(init));
        assert ApplyAll(h.oz, Dedup(pts)) == a + [h.oz.Apply(p)];
        assert r0.geom[..n - 1] == h.geom[..n - 1];
        assert r0.geom[n - 1] == last.(points := a);
      }
    }
  }

  /** One turn of the polygon decoder protocol appends the ring's decoding. */
  lemma FeedOneRing(h: PolygonHandler, ring: SourceRing)
    ensures FeedRing(h.RingBegin(|ring.points|), ring.points).RingEnd(ring.ringType).geom ==
      h.geom + [AnnotatedRing(ApplyAll(h.oz, Dedup(ring.points)), ring.ringType)]
    ensures FeedRing(h.RingBegin(|ring.points|), ring.points).RingEnd(ring.ringType).oz == h.oz
  {
    var b := h.RingBegin(|ring.points|);
    FeedRingDedups(b, ring.points);
    var f := FeedRing(b, ring.points);
    assert b.geom[..|b.geom| - 1] == h.geom;
    assert f.geom == h.geom + [AnnotatedRing(ApplyAll(h.oz, Dedup(ring.points)), Outer)];
  }

  lemma DedupRingsSnoc(oz: Overzoom, rings: seq<SourceRing>)
    requires |rings| > 0
    ensures DedupRings(oz, rings) == DedupRings(oz, rings[..|rings| - 1]) +
      [AnnotatedRing(ApplyAll(oz, Dedup(rings[|rings| - 1].points)), rings[|rings| - 1].ringType)]
  {
  }

  lemma {:induction false} FeedRingsDecodes(h: PolygonHandler, rings: seq<SourceRing>)
    ensures FeedRings(h, rings).oz == h.oz
    ensures FeedRings(h, rings).geom == h.geom + DedupRings(h.oz, rings)
    decreases |rings|
  {
    if |rings| > 0 {
      var init, ring := rings[..|rings| - 1], rings[|rings| - 1];
      FeedRingsDecodes(h, init);
      var r0 := FeedRings(h, init);
      assert FeedRings(h, rings) == FeedRing(r0.RingBegin(|ring.points|), ring.points).RingEnd(ring.ringType);
      FeedOneRing(r0, ring);
      DedupRingsSnoc(h.oz, rings);
    }
  }

  /** The polygon handler decodes one ring per source ring, in order, with
      repeated consecutive vertices dropped, the rest transformed, and each
      ring carrying the type reported at its end. */
  lemma PolygonHandlerDecodes(oz: Overzoom, rings: seq<SourceRing>)
    ensures DecodePolygonGeometry(oz, rings) == DedupRings(oz, rings)
    ensures forall i :: 0 <= i < |rings| ==>
      DecodePolygonGeometry(oz, rings)[i].ringType == rings[i].ringType &&
      |DecodePolygonGeometry(oz, rings)[i].points| <= |rings[i].points|
  {
    FeedRingsDecodes(PolygonHandler([], oz, InitialCursor), rings);
    assert DecodePolygonGeometry(oz, rings) == DedupRings(oz, rings);
  }
}

=== FILE: geometry.dfy ===
/**
 The integer geometry the overzoom pipeline works on: points, boxes, the
 closed-box membership test, and the removal of consecutive repeated
 vertices that both the decoding handlers and the linestring encoder perform.
 */
module Geometry {

  datatype Point = Point(x: int, y: int)

  /** An axis-aligned box given by its lower-left and upper-right corners. */
  datatype Box = Box(min: Point, max: Point)

  /** `boost::geometry::covered_by(point, box)`: membership in the CLOSED box,
      the boundary included. */
  predicate CoveredBy(p: Point, b: Box) {
    b.min.x <= p.x <= b.max.x && b.min.y <= p.y <= b.max.y
  }

  predicate AllCovered(pts: seq<Point>, b: Box) {
    forall i :: 0 <= i < |pts| ==> CoveredBy(pts[i], b)
  }

  predicate AllPartsCovered(parts: seq<seq<Point>>, b: Box) {
    forall i :: 0 <= i < |parts| ==> AllCovered(parts[i], b)
  }

  /** No vertex equals the one right before it. */
  predicate NoRepeats<T(==)>(s: seq<T>) {
    forall i :: 0 < i < |s| ==> s[i] != s[i - 1]
  }

  /** The reference definition of de-duplication: keep a vertex exactly when it
      is the first one or differs from the vertex right before it in `s`. */
  function Dedup<T(==)>(s: seq<T>): (r: seq<T>)
    ensures |r| <= |s|
    ensures |s| > 0 <==> |r| > 0
    ensures |s| > 0 ==> r[0] == s[0] && r[|r| - 1] == s[|s| - 1]
    decreases |s|
  {
    if |s| == 0 then []
    else
      var init := s[..|s| - 1];
      if |init| > 0 && init[|init| - 1] == s[|s| - 1] then Dedup(init)
      else Dedup(init) + [s[|s| - 1]]
  }

  /** De-duplication only drops vertices: each one it keeps is in the input. */
  lemma {:induction false} DedupElements<T>(s: seq<T>)
    ensures forall i :: 0 <= i < |Dedup(s)| ==> Dedup(s)[i] in s
    decreases |s|
  {
    if |s| > 0 {
      var init := s[..|s| - 1];
      DedupElements(init);
      forall i | 0 <= i < |Dedup(s)| ensures Dedup(s)[i] in s {
        if i < |Dedup(init)| {
          assert Dedup(s)[i] == Dedup(init)[i];
          assert Dedup(init)[i] in init;
        } else {
          assert Dedup(s)[i] == s[|s| - 1];
        }
      }
    }
  }

  /** De-duplication leaves no consecutive repeats. */
  lemma {:induction false} DedupNoRepeats<T>(s: seq<T>)
    ensures NoRepeats(Dedup(s))
    decreases |s|
  {
    if |s| > 0 {
      DedupNoRepeats(s[..|s| - 1]);
    }
  }

  /** A sequence without consecutive repeats is its own de-duplication. */
  lemma {:induction false} DedupOfNoRepeats<T>(s: seq<T>)
    requires NoRepeats(s)
    ensures Dedup(s) == s
    decreases |s|
  {
    if |s| > 0 {
      var init := s[..|s| - 1];
      assert NoRepeats(init);
      DedupOfNoRepeats(init);
      assert init + [s[|s| - 1]] == s;
    }
  }

  /** De-duplicating twice is de-duplicating once. */
  lemma DedupIdempotent<T>(s: seq<T>)
    ensures Dedup(Dedup(s)) == Dedup(s)
  {
    DedupNoRepeats(s);
    DedupOfNoRepeats(Dedup(s));
  }

  /** Whether a sequence holds some vertex other than its first. */
  predicate HasSecondVertex<T(==)>(s: seq<T>) {
    exists i :: 0 < i < |s| && s[i] != s[0]
  }

  /** A sequence keeps more than one vertex after de-duplication exactly when
      some vertex differs from the first. */
  lemma {:induction false} DedupLengthAboveOne<T>(s: seq<T>)
    ensures |Dedup(s)| > 1 <==> HasSecondVertex(s)
    decreases |s|
  {
    if |s| > 0 {
      var init := s[..|s| - 1];
      DedupLengthAboveOne(init);
      if HasSecondVertex(init) {
        var i :| 0 < i < |init| && init[i] != init[0];
        assert s[i] != s[0];
      }
      if HasSecondVertex(s) && !HasSecondVertex(init) {
        var i :| 0 < i < |s| && s[i] != s[0];
        assert i == |s| - 1;
        if |init| > 0 {
          assert init[|init| - 1] == init[0] by {
            if |init| > 1 {
              assert init[|init| - 1] == init[0] || HasSecondVertex(init);
            }
          }
        }
      }
    }
  }
}

=== FILE: numeric.dfy ===
/**
 Integer helpers shared by the tile arithmetic: the fixed-width types the C++
 code works in, the casts between them, powers of two, and the arithmetic
 right shift on signed integers written out one bit at a time.
 */
module Numeric {

  /** std::uint32_t */
  type uint32 = x: int | 0 <= x < 0x1_0000_0000

  /** std::uint8_t, the view the compression sniffers take of each byte */
  type byte = x: int | 0 <= x < 0x100

  predicate IsInt32(x: int) {
    -0x8000_0000 <= x < 0x8000_0000
  }

  /** `static_cast<std::int32_t>(u)` of an unsigned 32-bit value: the same
      32 bits read in two's complement. */
  function AsInt32(u: uint32): (r: int)
    ensures IsInt32(r)
    ensures (r - u) % 0x1_0000_0000 == 0
    ensures u < 0x8000_0000 ==> r == u
  {
    if u < 0x8000_0000 then u else u - 0x1_0000_0000
  }

  function Pow2(n: nat): (r: nat)
    ensures r >= 1
  {
    if n == 0 then 1 else 2 * Pow2(n - 1)
  }

  /** `x >> n` on a signed integer: an arithmetic shift, i.e. n successive
      halvings rounded towards minus infinity (Dafny's `/` by a positive
      divisor rounds that way too). */
  function Shr(x: int, n: nat): int
  {
    if n == 0 then x else Shr(x, n - 1) / 2
  }

  /** Division with remainder is unique: the quotient and remainder Dafny
      computes are the only pair with a remainder in [0, m). */
  lemma DivModUnique(x: int, m: int, q: int, r: int)
    requires m > 0 && 0 <= r < m && x == q * m + r
    ensures x / m == q && x % m == r
  {
    var q', r' := x / m, x % m;
    assert x == q' * m + r';
    var d := q - q';
    assert d * m == r' - r by {
      assert q * m - q' * m == r' - r;
      assert (q - q') * m == q * m - q' * m;
    }
    if d > 0 {
      MulAtLeast(d, m);
    } else if d < 0 {
      MulAtLeast(-d, m);
    }
  }

  lemma MulAtLeast(d: int, m: int)
    requires d >= 1 && m > 0
    ensures d * m >= m
  {
    assert d * m == (d - 1) * m + m;
    assert (d - 1) * m >= 0;
  }

  /** Multiplying by a positive number keeps the sign and does not shrink a
      positive factor. */
  lemma MulBound(q: int, m: int)
    requires m > 0
    ensures q < 0 ==> q * m <= -m
    ensures q > 0 ==> q * m >= q
  {
    if q < 0 {
      MulAtLeast(-q, m);
      assert q * m == -((-q) * m);
    } else if q > 0 {
      MulAtLeast(m, q);
      assert q * m == m * q;
    }
  }

  /** Multiplying both sides of u <= v by a non-negative number. */
  lemma MulMono(u: int, v: int, c: int)
    requires u <= v && c >= 0
    ensures u * c <= v * c
  {
    assert v * c - u * c == (v - u) * c;
  }

  /** Dividing a non-negative number by a positive one gives a non-negative
      quotient no larger than the dividend. */
  lemma DivBounds(x: int, m: int)
    requires x >= 0 && m > 0
    ensures 0 <= x / m <= x
  {
    MulBound(x / m, m);
  }

  /** Dividing twice is dividing once by the product. */
  lemma DivDiv(x: int, a: int, b: int)
    requires a > 0 && b > 0
    ensures x / a / b == x / (a * b)
  {
    var q, r := x / a, x % a;
    var q2, r2 := q / b, q % b;
    var ab := a * b;
    assert x == q * a + r;
    assert q == q2 * b + r2;
    assert q * a == q2 * ab + r2 * a by {
      assert (q2 * b + r2) * a == q2 * b * a + r2 * a;
      assert q2 * b * a == q2 * ab;
    }
    assert r2 * a <= ab - a by {
      MulMono(r2, b - 1, a);
      assert (b - 1) * a == ab - a;
    }
    MulMono(0, r2, a);
    DivModUnique(x, ab, q2, r2 * a + r);
  }

  /** Shifting by a + b is shifting by a and then by b. */
  lemma {:induction false} ShrAdd(x: int, a: nat, b: nat)
    ensures Shr(x, a + b) == Shr(Shr(x, a), b)
    decreases b
  {
    if b > 0 {
      ShrAdd(x, a, b - 1);
      assert Shr(x, a + b) == Shr(x, a + (b - 1)) / 2;
    }
  }

  /** The arithmetic shift is floor division by a power of two. */
  lemma {:induction false} ShrIsDiv(x: int, n: nat)
    ensures Shr(x, n) == x / Pow2(n)
    decreases n
  {
    if n > 0 {
      ShrIsDiv(x, n - 1);
      DivDiv(x, Pow2(n - 1), 2);
    }
  }

  /** The low n + 1 bits of x are its low n bits plus bit n. */
  lemma ModPow2Step(x: int, n: nat)
    ensures x % Pow2(n + 1) == x % Pow2(n) + Pow2(n) * ((x / Pow2(n)) % 2)
  {
    var p := Pow2(n);
    var q, r := x / p, x % p;
    var q2, b := q / 2, q % 2;
    assert Pow2(n + 1) == 2 * p;
    assert x == q * p + r;
    assert q == q2 * 2 + b;
    assert x == q2 * (2 * p) + (b * p + r);
    assert 0 <= b * p + r < 2 * p;
    DivModUnique(x, 2 * p, q2, b * p + r);
  }
}

=== FILE: zoom_coordinates.dfy ===
/**
 The point-scaling functor: multiplies both coordinates of a point by one
 stored factor. The C++ functor updates the point in place through a const
 call operator; the model returns the scaled point and leaves the functor,
 a value, as it was.
 */
module ZoomCoordinates {
  import opened Geometry

  datatype ZoomCoordinates = ZoomCoordinates(factor: int) {

    /** `operator()(p)`: the scaled point. Scaling is uniform, so the result
        lies on the same ray from the origin, and a factor of one changes
        nothing. */
    function Apply(p: Point): (r: Point)
      ensures r.x * p.y == r.y * p.x
      ensures factor == 1 ==> r == p
      ensures factor == 0 ==> r == Point(0, 0)
    {
      Point(p.x * factor, p.y * factor)
    }
  }

  /** Scaling by a and then by b is scaling by a * b. */
  lemma ApplyCompose(a: int, b: int, p: Point)
    ensures ZoomCoordinates(b).Apply(ZoomCoordinates(a).Apply(p)) == ZoomCoordinates(a * b).Apply(p)
  {
    assert p.x * a * b == p.x * (a * b);
    assert p.y * a * b == p.y * (a * b);
  }

  /** A non-zero factor maps distinct points to distinct points. */
  lemma ApplyInjective(z: ZoomCoordinates, p: Point, q: Point)
    requires z.factor != 0
    ensures z.Apply(p) == z.Apply(q) ==> p == q
  {
    if z.Apply(p) == z.Apply(q) {
      assert (p.x - q.x) * z.factor == 0;
      assert (p.y - q.y) * z.factor == 0;
    }
  }
}

=== FILE: zxy_extent.dfy ===
/**
 Tile identity tests. The Web-Mercator extent of a tile, computed in floating
 point in the same source file, is not part of this model.
 */
module ZxyExtent {
  import opened Numeric
  import opened ZxyMath

  /** `same(a, b)`: both tiles sit at the same zoom, column and row. */
  predicate Same(a: TileId, b: TileId) {
    a.z == b.z && a.x == b.x && a.y == b.y
  }

  /** `same_zxy(vt, z, x, y)`: the tile sits at the given unsigned position. */
  predicate SameZxy(vt: TileId, z: uint32, x: uint32, y: uint32) {
    vt.z == z && vt.x == x && vt.y == y
  }

  /** A tile position is nothing but its three coordinates, so `same` is
      equality of positions; in particular it is reflexive and symmetric. */
  lemma SameIsEquality(a: TileId, b: TileId)
    ensures Same(a, b) <==> a == b
    ensures Same(a, a)
    ensures Same(a, b) <==> Same(b, a)
  {
  }

  /** `same_zxy` against a position's own coordinates is `same`, and it holds
      exactly for the position built from the three numbers. */
  lemma SameZxyIsSame(a: TileId, b: TileId, z: uint32, x: uint32, y: uint32)
    requires b.z < 0x1_0000_0000 && b.x < 0x1_0000_0000 && b.y < 0x1_0000_0000
    ensures Same(a, b) <==> SameZxy(a, b.z, b.x, b.y)
    ensures SameZxy(a, z, x, y) <==> a == TileId(z, x, y)
  {
  }

  /** A tile at the target's own position passes the ancestry test: the
      equal-zoom case of compositing. */
  lemma SameZxyWithinTarget(vt: TileId, z: uint32, x: uint32, y: uint32)
    requires SameZxy(vt, z, x, y)
    ensures WithinTarget(vt, z, x, y)
  {
  }
}

=== FILE: zxy_math.dfy ===
/**
 Quadtree arithmetic on tile positions: whether a source tile is the target
 tile or one of its ancestors, and where inside the source tile the target
 tile sits once the source is scaled up to the target zoom.
 */
module ZxyMath {
  import opened Numeric

  /** A tile position. The C++ functions are templates over any record with
      fields z, x and y; this is the part of such a record they read. */
  datatype TileId = TileId(z: nat, x: nat, y: nat)

  /** `within_target(vt, z, x, y)`: the source tile `vt` is the tile (z, x, y)
      or one of its quadtree ancestors. A source deeper than the target is never
      an ancestor; otherwise the target's column and row, shifted right by the
      zoom difference, must land on the source's. */
  predicate WithinTarget(vt: TileId, z: int, x: int, y: int) {
    if vt.z > z then false
    else
      var dz := z - vt.z;
      Shr(x, dz) == vt.x && Shr(y, dz) == vt.y
  }

  /** The ancestor of tile t at the coarser zoom z: its column and row divided
      by the number of tiles per source tile along each axis. */
  function Ancestor(t: TileId, z: nat): (a: TileId)
    requires z <= t.z
    ensures a.z == z
  {
    var f := Pow2(t.z - z);
    DivBounds(t.x, f);
    DivBounds(t.y, f);
    TileId(z, t.x / f, t.y / f)
  }

  /** `within_target` is exactly "the target's ancestor at the source zoom is
      the source": floor division by 2^(z - vt.z) on both axes. */
  lemma WithinTargetIsAncestry(vt: TileId, z: int, x: int, y: int)
    ensures WithinTarget(vt, z, x, y) <==>
      vt.z <= z && x / Pow2(z - vt.z) == vt.x && y / Pow2(z - vt.z) == vt.y
  {
    if vt.z <= z {
      ShrIsDiv(x, z - vt.z);
      ShrIsDiv(y, z - vt.z);
    }
  }

  /** The same statement in terms of Ancestor, for targets that are tiles. */
  lemma WithinTargetIffAncestor(vt: TileId, t: TileId)
    ensures WithinTarget(vt, t.z, t.x, t.y) <==> vt.z <= t.z && Ancestor(t, vt.z) == vt
  {
    WithinTargetIsAncestry(vt, t.z, t.x, t.y);
  }

  /** At equal zoom a source is within the target exactly when it is the
      target's own position; a source deeper than the target never is. */
  lemma WithinTargetSameZoom(vt: TileId, x: int, y: int)
    ensures WithinTarget(vt, vt.z, x, y) <==> x == vt.x && y == vt.y
    ensures forall z: int :: z < vt.z ==> !WithinTarget(vt, z, x, y)
  {
  }

  /** Ancestry is transitive: an ancestor of an ancestor is an ancestor. */
  lemma WithinTargetTransitive(a: TileId, b: TileId, c: TileId)
    requires WithinTarget(a, b.z, b.x, b.y)
    requires WithinTarget(b, c.z, c.x, c.y)
    ensures WithinTarget(a, c.z, c.x, c.y)
  {
    var d1, d2 := b.z - a.z, c.z - b.z;
    ShrAdd(c.x, d2, d1);
    ShrAdd(c.y, d2, d1);
    assert d2 + d1 == c.z - a.z;
  }

  /** Every tile is within each of its ancestors, and no other tile at that
      zoom contains it. */
  lemma AncestorUnique(t: TileId, z: nat, vt: TileId)
    requires z <= t.z && vt.z == z
    ensures WithinTarget(Ancestor(t, z), t.z, t.x, t.y)
    ensures WithinTarget(vt, t.z, t.x, t.y) <==> vt == Ancestor(t, z)
  {
    WithinTargetIffAncestor(Ancestor(t, z), t);
    WithinTargetIffAncestor(vt, t);
  }

  /** How many levels the target lies below the source; the C++ loop runs
      that many times, and not at all when the target is not deeper. */
  function ZoomDelta(sourceZ: int, z: int): nat {
    if z > sourceZ then z - sourceZ else 0
  }

  /** The offset along one axis of a tile n levels below the source inside the
      source scaled by 2^n: the low n bits of its column (or row) times the
      tile size rounded down to an even number. */
  function TileOffset(tileSize: int, n: nat, v: int): int {
    2 * (tileSize / 2) * (v % Pow2(n))
  }

  lemma OffsetStep(tileSize: int, k: nat, v: int)
    ensures TileOffset(tileSize, k + 1, v) ==
      TileOffset(tileSize, k, v) + (if (v / Pow2(k)) % 2 == 1 then (tileSize / 2) * Pow2(k) * 2 else 0)
  {
    ModPow2Step(v, k);
    var h, p, b := tileSize / 2, Pow2(k), (v / Pow2(k)) % 2;
    assert 2 * h * (v % p + p * b) == 2 * h * (v % p) + h * p * 2 * b;
  }

  /** `displacement(source_z, tile_size, z, x, y)`: starting from half a tile,
      each of the z - source_z rounds doubles the step and adds it to dx (dy)
      when the current low bit of x (y) is set, then shifts x (y) right. */
  method Displacement(sourceZ: int, tileSize: int, z: int, x: int, y: int) returns (dx: int, dy: int)
    ensures z <= sourceZ ==> dx == 0 && dy == 0
    ensures dx == TileOffset(tileSize, ZoomDelta(sourceZ, z), x)
    ensures dy == TileOffset(tileSize, ZoomDelta(sourceZ, z), y)
  {
    var halfTile := tileSize / 2;
    dx, dy := 0, 0;
    var deltaZ := z - sourceZ;
    var zi := deltaZ;
    var cx, cy := x, y;
    ghost var n := ZoomDelta(sourceZ, z);
    ghost var k: nat := 0;
    while zi > 0
      invariant 0 <= k <= n
      invariant deltaZ > 0 ==> zi == n - k
      invariant deltaZ <= 0 ==> zi == deltaZ && k == 0
      invariant halfTile == (tileSize / 2) * Pow2(k)
      invariant cx == Shr(x, k) && cy == Shr(y, k)
      invariant dx == TileOffset(tileSize, k, x)
      invariant dy == TileOffset(tileSize, k, y)
    {
      ShrIsDiv(x, k);
      ShrIsDiv(y, k);
      OffsetStep(tileSize, k, x);
      OffsetStep(tileSize, k, y);
      halfTile := halfTile * 2;
      if cx % 2 == 1 {
        dx := dx + halfTile;
      }
      if cy % 2 == 1 {
        dy := dy + halfTile;
      }
      cx := cx / 2;
      cy := cy / 2;
      zi := zi - 1;
      k := k + 1;
    }
  }

  /** For an even tile size the offset is a whole number of tiles, at least
      zero and less than the scaled source tile. */
  lemma OffsetBounds(tileSize: int, n: nat, v: int)
    requires tileSize > 0 && tileSize % 2 == 0
    ensures TileOffset(tileSize, n, v) == tileSize * (v % Pow2(n))
    ensures 0 <= TileOffset(tileSize, n, v) < tileSize * Pow2(n)
  {
    var m, f := v % Pow2(n), Pow2(n);
    assert 2 * (tileSize / 2) == tileSize;
    MulMono(m, f - 1, tileSize);
    MulMono(0, m, tileSize);
    assert m * tileSize == tileSize * m;
    assert (f - 1) * tileSize == tileSize * f - tileSize;
  }

  /** The geometric meaning of the offset: when the source S contains the
      target (z, x, y), the offset equals the target's origin minus the
      source's origin, both measured in pixels at the target zoom. */
  lemma OffsetIsOriginDifference(s: TileId, z: int, x: int, y: int, extent: int)
    requires WithinTarget(s, z, x, y)
    requires extent > 0 && extent % 2 == 0
    ensures TileOffset(extent, z - s.z, x) == extent * x - extent * s.x * Pow2(z - s.z)
    ensures TileOffset(extent, z - s.z, y) == extent * y - extent * s.y * Pow2(z - s.z)
  {
    WithinTargetIsAncestry(s, z, x, y);
    AxisOffset(extent, z - s.z, x, s.x);
    AxisOffset(extent, z - s.z, y, s.y);
  }

  lemma AxisOffset(extent: int, n: nat, v: int, sv: int)
    requires extent > 0 && extent % 2 == 0
    requires v / Pow2(n) == sv
    ensures TileOffset(extent, n, v) == extent * v - extent * sv * Pow2(n)
  {
    var f, m := Pow2(n), v % Pow2(n);
    OffsetBounds(extent, n, v);
    assert v == sv * f + m;
    var a := sv * f;
    assert extent * (a + m) == extent * a + extent * m;
    assert extent * a == extent * sv * f;
  }

  /** The overzoom case from the point tests: the z0 tile contains tile
      (3, 1, 1), which sits one 4096-pixel tile right of and below the
      origin of the source scaled by 8. */
  lemma QuadrantTileOffset()
    ensures WithinTarget(TileId(0, 0, 0), 3, 1, 1)
    ensures TileOffset(4096, ZoomDelta(0, 3), 1) == 4096
  {
  }
}
